=== FILE: README.md ===
# PowerShell Editor Services — session core in Dafny

This project models the sequential core of PowerShell Editor Services, the host process that gives editors PowerShell language support. It covers four parts:

- **PowerShellContext** (`PowerShellSession.dfy`, together with `ExecutionQueue.dfy`, `RunspaceConfiguration.dfy`, `Commands.dfy` and `PathEscaping.dfy`). This coordinator serialises every piece of work onto one PowerShell runspace.
  - The request queue and the two procedures that drain it. `ProcessExecutionRequestQueue` retries the head request while the runspace is busy. `FlushExecutionRequestQueue`, run from the idle event, stops after the first success.
  - The session-state transitions of `Initialize`, `AbortExecution` and `Dispose`.
  - The routing of `ExecuteCommand`: into the queue, to the stopped debugger, or nowhere.
  - The decisions taken while the runspace is set up: which version-specific strategy to use, whether to set the execution policy, and which defaults apply when the version lookup fails.
  - The string helpers: `EscapePath`/`UnescapePath`, the output command and the prompt trim.
- **DscBreakpointCapability** (`DscBreakpoints.dfy`). It keeps the per-file map of DSC breakpoints. It renders that map into the `Enable-DscDebug`/`Disable-DscDebug` script, marks breakpoints verified, and tests whether a path lies under a DSC resource root.
- **FeatureManager** (`Features.dfy`). A registry of editor features keyed by type name, where the first registration wins.
- **AnalysisService** (`Analysis.dfy`). It builds the settings hashtables passed to PSScriptAnalyzer and sets the defaults for a new service. It decides, for each of the three marker requests, whether to analyse and with which settings, and which providers `Dispose` releases.

**The runspace as an oracle.** The runspace is outside the model. Whatever it answers is an input:

- the outcome of each execution attempt: `Success`, `Busy`, another `InvalidOperation`, or any other `Fault`;
- the `$PSVersionTable` lookup;
- the current execution policy;
- the runspace availability;
- what the debugger returns for a nested command.

**Drains and queue bookkeeping.** Each drain is a loop in a class method. That loop is proved equal to a pure specification function (`FlushSpec`, `ProcessSpec`), and the properties of the drain are proved about that function. Each queued request carries the number of its completion source. The class invariant says that the completions already set, followed by those of the requests still queued, are strictly increasing and all below the next one to hand out. So each completion is set at most once, and completions are set in the order their requests were queued.

**How the .NET dictionary is modelled.** The DSC breakpoint map is a `Dictionary<string, int[]>`, and its enumeration order decides the rendered script. It is modelled by slots plus a free list, the way the .NET dictionary fills them:

- a new key takes the most recently freed slot, or else a new slot at the end;
- a removed key frees its slot;
- an updated key keeps its slot.

## Model

| member | source | states |
|---|---|---|
| ExecutionQueue.FlushSpec | src/PowerShellEditorServices/Session/PowerShellContext.cs:271-307 | one flush as a function of the queue and of the runspace's answers: it completes at most one request, and none when an exception escapes; its order and split are stated by FlushStopsAtFirstSuccess and FlushSplitsQueue |
| ExecutionQueue.FlushStopsAtFirstSuccess | src/PowerShellEditorServices/Session/PowerShellContext.cs:271-307 | one flush dequeues a prefix of the queue and stops at the first success, so at most one completion is set per call; every request before it that failed with a PSInvalidOperationException (busy or not) is discarded without being completed; a fault escapes and also discards its request; whatever was not dequeued stays queued in order |
| ExecutionQueue.FlushSplitsQueue | src/PowerShellEditorServices/Session/PowerShellContext.cs:271-307 | the queue is exactly the requests a flush discarded, then the one it completed, then the ones it left queued |
| ExecutionQueue.ProcessSpec | src/PowerShellEditorServices/Session/PowerShellContext.cs:230-269 | one run of the consumer loop as a function of the queue and of the runspace's answers: at most one request is discarded, and one is exactly when an exception escapes; the rest of its behaviour is stated by the lemmas below |
| ExecutionQueue.ProcessPartition | src/PowerShellEditorServices/Session/PowerShellContext.cs:230-269 | the process loop splits the queue into completed requests, at most one discarded request and a rest, in order; it discards only on a fault and stops only when the queue is empty, a fault escapes or the runspace's answers run out |
| ExecutionQueue.ProcessSplitsQueue | src/PowerShellEditorServices/Session/PowerShellContext.cs:230-269 | the queue is exactly the completed requests followed by the discarded one and the rest |
| ExecutionQueue.ProcessCountsSuccesses | src/PowerShellEditorServices/Session/PowerShellContext.cs:238-245 | the number of requests completed equals the number of successful execution attempts |
| ExecutionQueue.ProcessFaultEndsRun | src/PowerShellEditorServices/Session/PowerShellContext.cs:247-266 | only an exception other than PSInvalidOperationException ends the loop early, and it is the last attempt made |
| ExecutionQueue.ProcessCompletesInOrder | src/PowerShellEditorServices/Session/PowerShellContext.cs:230-269 | requests are completed in the order they were queued, and the request that faulted is the one after the completed ones |
| ExecutionQueue.ProcessRetriesHeadWhileRejected | src/PowerShellEditorServices/Session/PowerShellContext.cs:247-262 | while the runspace answers busy or another invalid-operation, the head request is retried in place and the queue does not move |
| ExecutionQueue.ProcessDrainsEverything | src/PowerShellEditorServices/Session/PowerShellContext.cs:230-269 | without faults and with at least as many successes as requests, every request is completed, in order, and the queue is left empty |
| ExecutionQueue.FlushRounds | src/PowerShellEditorServices/Session/PowerShellContext.cs:364-372 | successive idle events, each flushing the queue the previous one left: at most one completion per event |
| ExecutionQueue.SuccessfulIdleEventsDrainInOrder | src/PowerShellEditorServices/Session/PowerShellContext.cs:364-372 | successive idle events whose first attempt succeeds, at least as many as the queued requests, complete every request in the order it was queued; none is discarded and none stays queued |
| ExecutionQueue.ScriptToHost | src/PowerShellEditorServices/Session/PowerShellContext.cs:632-647 | the pipeline ExecuteScriptString queues with output to the host is what SendOutputToHost makes of the single script command |
| ExecutionQueue.ParallelTestQueue | test/PowerShellEditorServices.Test/Session/PowerShellContextTests.cs:130-135 | the test's four requests (`$x = 100`, `$x += 200`, `$x = $x / 100` with output to the host, then `$x` without), with four consecutive completions |
| ExecutionQueue.ParallelRequestsRunInOrder | test/PowerShellEditorServices.Test/Session/PowerShellContextTests.cs:124-140 | drained by idle events that each accept their first attempt, the test's four requests complete in the order they were queued, so the read of `$x` follows the three assignments |
| ExecutionQueue.BusyAnswerLosesParallelRequest | src/PowerShellEditorServices/Session/PowerShellContext.cs:285-298 | when the runspace is busy at the first attempt of the first idle event, the flush discards the first of the four requests and the later events complete the other three, leaving nothing queued |
| ExecutionQueue.Completions | src/PowerShellEditorServices/Session/PowerShellContext.cs:309-318 | the completion numbers of a queue, in queue order |
| ExecutionQueue.CompletionsAppend | src/PowerShellEditorServices/Session/PowerShellContext.cs:309-318 | the completion numbers of two queues put together are those of the first followed by those of the second |
| ExecutionQueue.BusyRequestIsDroppedByFlush | src/PowerShellEditorServices/Session/PowerShellContext.cs:285-298 | when the first request is busy and the second succeeds, the flush as written loses the first (dequeued, never completed), while the corrected flush completes the first and keeps the second queued |
| ExecutionQueue.FlushRetryingBusy | src/PowerShellEditorServices/Session/PowerShellContext.cs:285-298 | the corrected flush of the first Findings row, where a busy request stays at the head: still at most one completion per flush, and none when an exception escapes |
| ExecutionQueue.FlushRetryingBusyLosesNothingToBusy | src/PowerShellEditorServices/Session/PowerShellContext.cs:271-307 | the corrected flush discards only requests that failed with a non-busy exception or a fault, completes at most one, and keeps the rest queued in order |
| PowerShellSession.PowerShellContext.constructor | src/PowerShellEditorServices/Session/PowerShellContext.cs:107-114 | a new context is in state Unknown, with no version, no strategy, no cancellation source and an empty queue |
| PowerShellSession.PowerShellContext.Initialize | src/PowerShellEditorServices/Session/PowerShellContext.cs:116-180 | the state afterwards is NotStarted or Ready; the version and edition come from the lookup, with defaults; an unsupported major version throws, and the state is NotStarted; otherwise the strategy is chosen, the state becomes Ready, and the execution policy to set is reported |
| PowerShellSession.PowerShellContext.QueueExecutionRequest | src/PowerShellEditorServices/Session/PowerShellContext.cs:309-318 | the request is appended at the tail with a fresh completion number; the queue invariant is kept |
| PowerShellSession.PowerShellContext.ExecuteWithRunspace | src/PowerShellEditorServices/Session/PowerShellContext.cs:452-481 | a runspace function or action is queued like any other request |
| PowerShellSession.PowerShellContext.FlushExecutionRequestQueue | src/PowerShellEditorServices/Session/PowerShellContext.cs:271-307 | the loop leaves the queue and the completed requests exactly as FlushSpec says, and keeps the queue invariant |
| PowerShellSession.PowerShellContext.HandleOnIdleEvent | src/PowerShellEditorServices/Session/PowerShellContext.cs:364-372 | an idle event runs one flush |
| PowerShellSession.PowerShellContext.ProcessExecutionRequestQueue | src/PowerShellEditorServices/Session/PowerShellContext.cs:230-269 | the nested retry loops leave the queue and the completed requests exactly as ProcessSpec says, and keep the queue invariant |
| PowerShellSession.RetryHead | src/PowerShellEditorServices/Session/PowerShellContext.cs:236-266 | the head request is executed again while the runspace answers busy or another invalid-operation; the run ends at the first success (the request is completed), at an escaping exception (the request is dropped) or when the answers run out, and continues exactly where ProcessSpec does |
| PowerShellSession.FlushKeepsHandedOut | src/PowerShellEditorServices/Session/PowerShellContext.cs:271-307 | a flush keeps each completion handed out once, in increasing order |
| PowerShellSession.ProcessKeepsHandedOut | src/PowerShellEditorServices/Session/PowerShellContext.cs:230-269 | the process loop keeps each completion handed out once, in increasing order |
| PowerShellSession.CompletionsOfSplit | src/PowerShellEditorServices/Session/PowerShellContext.cs:271-307 | the completion numbers of a split queue are those of its parts, in order |
| PowerShellSession.DropFrontKeepsHandedOut | src/PowerShellEditorServices/Session/PowerShellContext.cs:271-307 | removing the requests dequeued and dropped in front of the rest keeps the completions handed out once and in increasing order |
| PowerShellSession.HandedOutWithoutBlock | src/PowerShellEditorServices/Session/PowerShellContext.cs:230-307 | dropping requests from the queue, whether discarded or not, keeps completions unique and increasing |
| PowerShellSession.IncreasingWithoutBlock | src/PowerShellEditorServices/Session/PowerShellContext.cs:230-307 | an increasing sequence stays increasing when a block is removed from its middle |
| PowerShellSession.Pipeline | src/PowerShellEditorServices/Session/PowerShellContext.cs:540-549 | the output command is appended only when output goes to the host |
| PowerShellSession.PowerShellContext.ExecuteCommand | src/PowerShellEditorServices/Session/PowerShellContext.cs:524-598 | state Unknown throws; AvailableForNestedCommand goes to the stopped debugger, or returns an empty result when it is not stopped, and a debugger runtime error appends its message to the error buffer; every other case is queued with the command list built for it; nothing else changes the queue |
| PowerShellSession.PowerShellContext.ExecuteScriptString | src/PowerShellEditorServices/Session/PowerShellContext.cs:619-648 | the script is queued as a script command, followed by the output command when output goes to the host; it throws only when uninitialised or when the stopped debugger has no strategy |
| PowerShellSession.PowerShellContext.ExecuteScriptAtPath | src/PowerShellEditorServices/Session/PowerShellContext.cs:656-676 | with arguments, the path escaped for `[`, `]` and space, then a space and the arguments, is queued as a script; without arguments, the unescaped path is queued as a command; in both cases the output command follows, so output goes to the host |
| PowerShellSession.PowerShellContext.AbortExecution | src/PowerShellEditorServices/Session/PowerShellContext.cs:682-704 | the state becomes Aborting unless it is Aborting or Disposed, in which case nothing changes; a stopped debugger is told to stop |
| PowerShellSession.PowerShellContext.ResumeDebugger | src/PowerShellEditorServices/Session/PowerShellContext.cs:720-734 | changes nothing |
| PowerShellSession.PowerShellContext.BreakExecution | src/PowerShellEditorServices/Session/PowerShellContext.cs:711-718 | the break goes through the chosen strategy; with none chosen it throws a null reference |
| PowerShellSession.PowerShellContext.Dispose | src/PowerShellEditorServices/Session/PowerShellContext.cs:740-757 | aborts iff the state was Running or the debugger is stopped; always ends Disposed; then cancels the queue's cancellation source, throwing when there is none |
| PowerShellSession.PowerShellContext.DisposeGuarded | src/PowerShellEditorServices/Session/PowerShellContext.cs:740-757 | the corrected Dispose: the same transitions, and a missing cancellation source is skipped |
| PowerShellSession.DisposeAfterInitializeThrows | src/PowerShellEditorServices/Session/PowerShellContext.cs:740-757 | after construction and Initialize, Dispose as written always throws a null reference |
| PowerShellSession.QueueParallelTestRequests | test/PowerShellEditorServices.Test/Session/PowerShellContextTests.cs:130-135 | the three ExecuteScriptString calls and the ExecuteCommand call of the test queue exactly its four requests, in call order, with consecutive completions |
| PowerShellSession.FlushOnFourIdleEvents | src/PowerShellEditorServices/Session/PowerShellContext.cs:364-372 | four idle events that each accept their first attempt drain a four-request queue and set every completion in queue order |
| PowerShellSession.FlushOnIdleEventsBusyFirst | src/PowerShellEditorServices/Session/PowerShellContext.cs:285-298 | when the first attempt of the first of three idle events meets a busy runspace, the first request's completion is not set, the other three are set in order and nothing stays queued |
| PowerShellSession.HeadNeverSetAfterward | src/PowerShellEditorServices/Session/PowerShellContext.cs:230-307 | under the class invariant, the completion of the request at the head of the queue is neither among those already set nor among those of the requests behind it |
| PowerShellSession.ParallelRequestsCompleteInOrder | test/PowerShellEditorServices.Test/Session/PowerShellContextTests.cs:124-140 | on an initialized context with nothing queued, the test's four requests, drained by four idle events that each accept their first attempt, have their completions set in the order they were queued, and nothing stays queued |
| PowerShellSession.BusyIdleEventLosesParallelRequest | test/PowerShellEditorServices.Test/Session/PowerShellContextTests.cs:143-184 | in the busy-runspace test, one busy answer at the first idle event means the first request (`$x = 100`) is never completed and only the other three are, in order, with nothing left queued |
| PowerShellSession.DisposeGuardedAfterInitialize | src/PowerShellEditorServices/Session/PowerShellContext.cs:740-757 | after construction and Initialize, the corrected Dispose ends in state Disposed |
| PowerShellSession.PowerShellContext.OnDebuggerStop | src/PowerShellEditorServices/Session/PowerShellContext.cs:812-875 | the debugger-stopped flag is set |
| RunspaceConfiguration.VersionLess | src/PowerShellEditorServices/Session/PowerShellContext.cs:335 | the System.Version ordering behind `>= new Version(5,0)`: a smaller major version is always less, a less version never has a greater major one, and no version is less than itself |
| RunspaceConfiguration.SelectOperations | src/PowerShellEditorServices/Session/PowerShellContext.cs:335-352 | major version 5 or more selects PowerShell5Operations, 4 selects PowerShell4Operations, 3 selects PowerShell3Operations, and anything lower is unsupported |
| RunspaceConfiguration.GetPowerShellVersion | src/PowerShellEditorServices/Session/PowerShellContext.cs:398-438 | the looked-up version and edition are used where present; a failed lookup gives 5.0 and "Desktop" |
| RunspaceConfiguration.FailedLookupSelectsPowerShell5 | src/PowerShellEditorServices/Session/PowerShellContext.cs:400-437 | a failed version lookup selects PowerShell5Operations and the Desktop edition |
| RunspaceConfiguration.ExecutionPolicyToSet | src/PowerShellEditorServices/Session/PowerShellContext.cs:357-361 | the policy is set, to RemoteSigned, iff the edition is not "Linux" and the current policy is stricter than RemoteSigned or is Bypass or Undefined |
| RunspaceConfiguration.ShouldSetExecutionPolicy | src/PowerShellEditorServices/Session/PowerShellContext.cs:1036-1038 | the execution-policy test: the current policy is never set again, unless Bypass is asked for or the policy is Undefined |
| RunspaceConfiguration.ExecutionPolicyTestFollowsEnumOrder | src/PowerShellEditorServices/Session/PowerShellContext.cs:1036-1038 | unless Bypass is asked for or the policy is Undefined, a policy is set exactly when it comes earlier in the enum's declaration order than the current one, and never when it equals it; for a current Bypass this tightens the policy (see Findings) |
| RunspaceConfiguration.BypassSessionIsTightened | src/PowerShellEditorServices/Session/PowerShellContext.cs:1030-1051 | as written, a session under Bypass outside Linux is set to RemoteSigned, a stricter policy |
| RunspaceConfiguration.ShouldLowerExecutionPolicy | src/PowerShellEditorServices/Session/PowerShellContext.cs:1036-1038 | the corrected test: over a Bypass session it sets a policy only when Bypass is asked for; for every other current policy it decides as the test as written |
| RunspaceConfiguration.CorrectedPolicyTestOnlyLowers | src/PowerShellEditorServices/Session/PowerShellContext.cs:1030-1038 | unless Bypass is asked for or the policy is Undefined, the corrected test sets a policy exactly when it is less restrictive, with Bypass least restrictive, so RemoteSigned is never set over Bypass |
| RunspaceConfiguration.TrimEnd | src/PowerShellEditorServices/Session/PowerShellContext.cs:1097 | the result is the longest prefix not ending in a trimmed character; only trimmed characters are removed |
| RunspaceConfiguration.TrimEndIdempotent | src/PowerShellEditorServices/Session/PowerShellContext.cs:1097 | trimming twice is trimming once |
| RunspaceConfiguration.PromptText | src/PowerShellEditorServices/Session/PowerShellContext.cs:1069-1103 | with prompt output, the output trimmed of trailing spaces, `>` and newlines; without it, "PS" |
| Commands.GetOutputCommand | src/PowerShellEditorServices/Session/PowerShellContext.cs:996-1011 | `Out-String -Stream` when the debugger is stopped, otherwise `Out-Default`; local scope in both |
| Commands.SendOutputToHost | src/PowerShellEditorServices/Session/PowerShellContext.cs:540-549 | an empty command list is an argument error; otherwise the first command merges errors into output, the others are kept, and the output command is appended |
| Commands.ScriptAtPathCommands | src/PowerShellEditorServices/Session/PowerShellContext.cs:656-676 | without arguments the path is the command; with arguments a script of the escaped path, a space and the arguments |
| PathEscaping.Targets | src/PowerShellEditorServices/Session/PowerShellContext.cs:775-786 | `[` and `]` are always escaped, and space iff escapeSpaces; never the backtick itself |
| PathEscaping.EscapeAllCons | src/PowerShellEditorServices/Session/PowerShellContext.cs:775-786 | a target character gets a backtick unless the character before it is one |
| PathEscaping.TwoPassesAreOne | src/PowerShellEditorServices/Session/PowerShellContext.cs:775-786 | running the regex replacements one after another equals one pass over all targets |
| PathEscaping.EscapeAllIdempotent | src/PowerShellEditorServices/Session/PowerShellContext.cs:775-786 | escaping an escaped string changes nothing |
| PathEscaping.EscapePath | src/PowerShellEditorServices/Session/PowerShellContext.cs:775-786 | the chain of replacements equals a single left-to-right pass over `[`, `]` and optionally space |
| PathEscaping.EscapePathIdempotent | src/PowerShellEditorServices/Session/PowerShellContext.cs:775-786 | EscapePath applied twice equals EscapePath applied once |
| PathEscaping.EscapeAllEscapesEveryTarget | src/PowerShellEditorServices/Session/PowerShellContext.cs:775-786 | in the result, every target character is directly preceded by a backtick |
| PathEscaping.EscapeAllOnlyInsertsBackticks | src/PowerShellEditorServices/Session/PowerShellContext.cs:775-786 | removing all backticks from the result gives the input with its backticks removed: only backticks are inserted |
| PathEscaping.EscapePathEscapesTargets | src/PowerShellEditorServices/Session/PowerShellContext.cs:775-786 | EscapePath escapes every target and changes nothing except by inserting backticks |
| PathEscaping.RemoveEscapes | src/PowerShellEditorServices/Session/PowerShellContext.cs:801 | the look-ahead replacement only deletes backticks: the result is no longer than the input, and without backticks the two are the same string |
| PathEscaping.RemoveEscapesWithoutBacktick | src/PowerShellEditorServices/Session/PowerShellContext.cs:794-802 | a string without backticks is left unchanged |
| PathEscaping.RemoveEscapesCons | src/PowerShellEditorServices/Session/PowerShellContext.cs:794-802 | a backtick is deleted exactly when the next character is a space, `[` or `]`; every other character is kept |
| PathEscaping.UnescapePath | src/PowerShellEditorServices/Session/PowerShellContext.cs:794-802 | removes exactly the backticks directly followed by space, `[` or `]`; a path without backticks is returned as it is |
| PathEscaping.RemoveEscapesUndoesEscapeAll | src/PowerShellEditorServices/Session/PowerShellContext.cs:775-802 | unescaping undoes escaping of any subset of the escapable characters, for backtick-free input |
| PathEscaping.UnescapeEscapeRoundTrip | src/PowerShellEditorServices/Session/PowerShellContext.cs:775-802 | UnescapePath(EscapePath(p, s)) == p for every backtick-free p |
| DscBreakpoints.BreakpointDetails.constructor | src/PowerShellEditorServices/Session/Capabilities/DscBreakpointCapability.cs:24-27 | stands for a BreakpointDetails object a caller passes to SetLineBreakpoints, reduced to its line number and its Verified flag: it has the given line and is not yet verified |
| DscBreakpoints.LineNumbers | src/PowerShellEditorServices/Session/Capabilities/DscBreakpointCapability.cs:34-38 | the breakpoints' line numbers, in input order |
| DscBreakpoints.DigitChar | src/PowerShellEditorServices/Session/Capabilities/DscBreakpointCapability.cs:46-50 | the decimal digit character of a number below ten |
| DscBreakpoints.NatToString | src/PowerShellEditorServices/Session/Capabilities/DscBreakpointCapability.cs:46-50 | a natural number renders as a non-empty string of digits |
| DscBreakpoints.NatToStringRoundTrip | src/PowerShellEditorServices/Session/Capabilities/DscBreakpointCapability.cs:46-50 | the digits read back to the number |
| DscBreakpoints.IntToString | src/PowerShellEditorServices/Session/Capabilities/DscBreakpointCapability.cs:46-50 | a line number renders as a non-empty string without commas |
| DscBreakpoints.IntToStringRoundTrip | src/PowerShellEditorServices/Session/Capabilities/DscBreakpointCapability.cs:46-50 | the rendered line number parses back to itself |
| DscBreakpoints.Join | src/PowerShellEditorServices/Session/Capabilities/DscBreakpointCapability.cs:46-50 | no parts join to the empty string, one part to itself |
| DscBreakpoints.JoinEmptyOnlyWithoutParts | src/PowerShellEditorServices/Session/Capabilities/DscBreakpointCapability.cs:46-50 | non-empty parts join to the empty string iff there are none |
| DscBreakpoints.IntStrings | src/PowerShellEditorServices/Session/Capabilities/DscBreakpointCapability.cs:46-50 | each line number is rendered, in order |
| DscBreakpoints.IndexOfComma | src/PowerShellEditorServices/Session/Capabilities/DscBreakpointCapability.cs:46-50 | the position of the first comma, or the length when there is none |
| DscBreakpoints.IndexOfCommaAfter | src/PowerShellEditorServices/Session/Capabilities/DscBreakpointCapability.cs:46-50 | the first comma of a joined string is right after its comma-free first part |
| DscBreakpoints.LinesTextRoundTrip | src/PowerShellEditorServices/Session/Capabilities/DscBreakpointCapability.cs:46-50 | the comma-joined line list parses back to the same lines: the rendering loses nothing |
| DscBreakpoints.Entry | src/PowerShellEditorServices/Session/Capabilities/DscBreakpointCapability.cs:46-50 | each file renders to a non-empty `@{Path="<path>";Line=@(<lines>)}` |
| DscBreakpoints.Entries | src/PowerShellEditorServices/Session/Capabilities/DscBreakpointCapability.cs:46-50 | one entry per file, in enumeration order |
| DscBreakpoints.HashtableText | src/PowerShellEditorServices/Session/Capabilities/DscBreakpointCapability.cs:46-50 | the rendered hashtables are empty iff there are no files |
| DscBreakpoints.ScriptFor | src/PowerShellEditorServices/Session/Capabilities/DscBreakpointCapability.cs:55-60 | non-empty hashtables give `Enable-DscDebug -Breakpoints ` followed by them; none give `Disable-DscDebug` |
| DscBreakpoints.Occupied | src/PowerShellEditorServices/Session/Capabilities/DscBreakpointCapability.cs:21-22 | the dictionary enumerates exactly the keys in its occupied slots |
| DscBreakpoints.OccupiedDistinct | src/PowerShellEditorServices/Session/Capabilities/DscBreakpointCapability.cs:21-22 | with distinct slots, each key is enumerated once |
| DscBreakpoints.SlotOf | src/PowerShellEditorServices/Session/Capabilities/DscBreakpointCapability.cs:21-22 | the slot that holds a key, if there is one |
| DscBreakpoints.DscBreakpointCapability.constructor | src/PowerShellEditorServices/Session/Capabilities/DscBreakpointCapability.cs:19-22 | no resource roots and an empty breakpoint map |
| DscBreakpoints.DscBreakpointCapability.Files | src/PowerShellEditorServices/Session/Capabilities/DscBreakpointCapability.cs:46-50 | enumerates exactly the files in the breakpoint map |
| DscBreakpoints.DscBreakpointCapability.GatherResourceRootPaths | src/PowerShellEditorServices/Session/Capabilities/DscBreakpointCapability.cs:122-149 | the resource roots become the ParentPath of every resource Get-DscResource returned, an empty list included; when it threw they stay as they were |
| DscBreakpoints.DscBreakpointCapability.DebugScript | src/PowerShellEditorServices/Session/Capabilities/DscBreakpointCapability.cs:46-60 | the script for the stored breakpoints: `Disable-DscDebug` when none are stored, otherwise a script starting with `Enable-DscDebug -Breakpoints ` |
| DscBreakpoints.DscBreakpointCapability.Store | src/PowerShellEditorServices/Session/Capabilities/DscBreakpointCapability.cs:34-40 | the file's entry becomes the lines; an existing file keeps its slot, and a new file takes the most recently freed slot or a new one at the end (SlotsAfterStore) |
| DscBreakpoints.DscBreakpointCapability.Remove | src/PowerShellEditorServices/Session/Capabilities/DscBreakpointCapability.cs:41-44 | the file's entry is removed, its slot emptied and pushed on the free list; other files keep their slots (SlotsAfterRemove) |
| DscBreakpoints.DscBreakpointCapability.UpdateFile | src/PowerShellEditorServices/Session/Capabilities/DscBreakpointCapability.cs:34-44 | with breakpoints the file's entry is set to their lines and the slots change as Store says, without them it is removed and the slots change as Remove says; other entries are unchanged |
| DscBreakpoints.DscBreakpointCapability.RunDebugScript | src/PowerShellEditorServices/Session/Capabilities/DscBreakpointCapability.cs:55-60 | the rendered debug script is executed as a script string without output to the host: when the context queues it, it is appended with the next completion number and `nextCompletion` advances by one; otherwise queue and counter are unchanged; it throws exactly where ExecuteScriptString does |
| DscBreakpoints.DscBreakpointCapability.UpdateAndRun | src/PowerShellEditorServices/Session/Capabilities/DscBreakpointCapability.cs:34-60 | UpdateFile then RunDebugScript: the new map and slots as UpdateFile says, and the debug script for the new map queued as RunDebugScript says |
| DscBreakpoints.VerifyUnlessThrown | src/PowerShellEditorServices/Session/Capabilities/DscBreakpointCapability.cs:55-69 | an exception from running the script escapes with no breakpoint changed; otherwise every breakpoint is marked verified, keeps its line and is returned in order |
| DscBreakpoints.DscBreakpointCapability.SetLineBreakpoints | src/PowerShellEditorServices/Session/Capabilities/DscBreakpointCapability.cs:24-69 | the map entry for the file becomes the breakpoints' lines in input order, or is removed when there are none, and every other entry is unchanged; the slots change as Store or Remove says, so the new map's enumeration order, and with it the order of the entries in the script, is determined; the Enable/Disable script for the new map is queued with the next completion number and `nextCompletion` advances, or, when nothing is queued, queue and counter are unchanged; the same breakpoints come back in order, all verified |
| DscBreakpoints.MarkVerified | src/PowerShellEditorServices/Session/Capabilities/DscBreakpointCapability.cs:62-68 | every breakpoint is verified and keeps its line |
| DscBreakpoints.DisableOnlyWithoutBreakpoints | src/PowerShellEditorServices/Session/Capabilities/DscBreakpointCapability.cs:55-60 | the script is `Disable-DscDebug` iff the map is empty |
| DscBreakpoints.EveryFileListedOnce | src/PowerShellEditorServices/Session/Capabilities/DscBreakpointCapability.cs:46-50 | every file in the map is rendered exactly once, with its own lines |
| DscBreakpoints.DscBreakpointCapability.IsDscResourcePath | src/PowerShellEditorServices/Session/Capabilities/DscBreakpointCapability.cs:71-78 | true iff some resource root is a case-insensitive prefix of the path |
| DscBreakpoints.StartsWithIgnoringCase | src/PowerShellEditorServices/Session/Capabilities/DscBreakpointCapability.cs:73-77 | `StartsWith` with case ignored: a match needs the prefix to be no longer than the path, and an exact prefix always matches |
| DscBreakpoints.AnyRootPrefixes | src/PowerShellEditorServices/Session/Capabilities/DscBreakpointCapability.cs:73-77 | the loop over roots finds a prefix iff one exists |
| DscBreakpoints.FoldAll | src/PowerShellEditorServices/Session/Capabilities/DscBreakpointCapability.cs:73-77 | folds the case of every character |
| DscBreakpoints.IsDscResourcePathIgnoresCase | src/PowerShellEditorServices/Session/Capabilities/DscBreakpointCapability.cs:71-78 | the answer does not depend on the case of the path |
| DscBreakpoints.ResourceRootsArePrefixes | src/PowerShellEditorServices/Session/Capabilities/DscBreakpointCapability.cs:71-78 | a path under a resource root is a DSC resource path |
| Features.Register | src/PowerShellEditorServices.Core/FeatureManager.cs:42-45 | adds the key only when it is new; every existing entry keeps its object |
| Features.Lookup | src/PowerShellEditorServices.Core/FeatureManager.cs:63-74 | finds the stored object only when it is an instance of the requested type |
| Features.FirstRegistrationWins | src/PowerShellEditorServices.Core/FeatureManager.cs:42-45 | a second registration under a taken key changes nothing |
| Features.RegisterKeepsOtherLookups | src/PowerShellEditorServices.Core/FeatureManager.cs:42-45 | registering one key does not change what any other key finds |
| Features.LookupFindsStored | src/PowerShellEditorServices.Core/FeatureManager.cs:63-74 | in a well-typed index the lookup returns exactly the stored entry |
| Features.FeatureManager.constructor | src/PowerShellEditorServices.Core/FeatureManager.cs:10-11 | the index starts empty |
| Features.FeatureManager.AddFeature | src/PowerShellEditorServices.Core/FeatureManager.cs:36-46 | the feature is registered under its runtime type's name, first registration wins; a null feature throws and changes nothing |
| Features.FeatureManager.AddFeatureWithWrapper | src/PowerShellEditorServices.Core/FeatureManager.cs:48-61 | the same update as AddFeature; the wrapper and the path are ignored |
| Features.FeatureManager.AddFeatureAs | src/PowerShellEditorServices.Core/FeatureManager.cs:36-46 | the corrected registration, under the declared type's name |
| Features.FeatureManager.GetFeature | src/PowerShellEditorServices.Core/FeatureManager.cs:63-74 | the object stored under the type's name, which is an instance of that type, or nothing |
| Features.FeatureManager.GetLogFeature | src/PowerShellEditorServices.Core/Log/ILogFeature.cs:17-20 | found iff something is stored under the ILogFeature name |
| Features.FeatureManager.OnFeatureAdded | src/PowerShellEditorServices.Core/FeatureManager.cs:82-90 | an event carrying the object's type is raised iff the object is non-null and there are subscribers |
| Features.LogFeatureIsNotFound | src/PowerShellEditorServices.Core/Log/ILogFeature.cs:17-20 | a logger added with AddFeature is not found by GetLogFeature |
| Features.LogFeatureAddedAsInterfaceIsFound | src/PowerShellEditorServices.Core/Log/ILogFeature.cs:17-20 | a logger registered under its interface is found |
| Features.RegisteredAsIsFound | src/PowerShellEditorServices.Core/FeatureManager.cs:36-74 | the corrected registration keeps the index well typed and is found under its declared type |
| Features.RegisteredIsFoundOnlyByClass | src/PowerShellEditorServices.Core/FeatureManager.cs:36-74 | as written, a fresh registration is found under a new name iff that name is the runtime class |
| Analysis.RuleKeys | src/PowerShellEditorServices/Analysis/AnalysisService.cs:198-199 | the rule names of the settings map, in order |
| Analysis.GetPSSASettingsHashtable | src/PowerShellEditorServices/Analysis/AnalysisService.cs:196-209 | a table with exactly the keys IncludeRules and Rules: IncludeRules lists the map's keys, and Rules maps exactly those keys to their settings |
| Analysis.AnalysisServiceProvider.constructor | src/PowerShellEditorServices/Analysis/AnalysisServiceProvider.cs:33-46 | a new provider is not disposed; its runspace pool is opened iff PSScriptAnalyzer was found |
| Analysis.AnalysisServiceProvider.Dispose | src/PowerShellEditorServices/Analysis/AnalysisServiceProvider.cs:48-51 | with an opened pool the provider is disposed; without one, disposing the null pool throws a null reference and nothing changes |
| Analysis.AnalysisService.constructor | src/PowerShellEditorServices/Analysis/AnalysisService.cs:105-121 | ActiveRules is the eleven default rules and SettingsPath the argument; the service is enabled iff both providers were created, and then they are distinct; every provider created is new, not disposed, and has an opened pool iff PSScriptAnalyzer was found |
| Analysis.AnalysisService.SetActiveRules | src/PowerShellEditorServices/Analysis/AnalysisService.cs:66-77 | ActiveRules becomes the given rules |
| Analysis.AnalysisService.SetSettingsPath | src/PowerShellEditorServices/Analysis/AnalysisService.cs:83-93 | SettingsPath becomes the given path |
| Analysis.AnalysisService.SettingsFromActiveRules | src/PowerShellEditorServices/Analysis/AnalysisService.cs:227-232 | a table whose only key is IncludeRules, holding the current ActiveRules |
| Analysis.AnalysisService.IsEnabled | src/PowerShellEditorServices/Analysis/AnalysisService.cs:29 | the service is enabled only with both providers, which are then all the providers it holds; otherwise it holds at most one |
| Analysis.AnalysisService.UseSettingsFile | src/PowerShellEditorServices/Analysis/AnalysisService.cs:30-36 | a settings file is used exactly when a settings path is set, an empty path included (the test is `!= null`) |
| Analysis.AnalysisService.SemanticMarkersRequest | src/PowerShellEditorServices/Analysis/AnalysisService.cs:133-150 | nothing is analysed iff the service is disabled; when enabled, the settings file is used iff SettingsPath is set, and otherwise the active-rules table is passed |
| Analysis.AnalysisService.SemanticMarkersWithSettingsRequest | src/PowerShellEditorServices/Analysis/AnalysisService.cs:158-166 | nothing is analysed iff disabled; otherwise the given settings go to the diagnostics provider |
| Analysis.AnalysisService.FormattingMarkersRequest | src/PowerShellEditorServices/Analysis/AnalysisService.cs:168-177 | nothing is analysed iff disabled; otherwise the given settings go to the formatting provider |
| Analysis.DefaultRequestUsesIncludedRules | src/PowerShellEditorServices/Analysis/AnalysisService.cs:133-150 | a new enabled service without a settings file analyses with the eleven default rules |
| Analysis.DisabledServiceAnalysesNothing | src/PowerShellEditorServices/Analysis/AnalysisService.cs:133-177 | a disabled service returns no markers from all three requests |
| Analysis.AnalysisService.Dispose | src/PowerShellEditorServices/Analysis/AnalysisService.cs:214-221 | a disabled service disposes nothing; an enabled one disposes the diagnostics provider, then the formatting provider, and the first provider without an opened pool throws a null reference, which ends the disposal |
| Analysis.AnalysisService.DisposeCreated | src/PowerShellEditorServices/Analysis/AnalysisService.cs:214-221 | the corrected Dispose: it never throws, and every created provider with an opened pool is disposed |
| Analysis.DisposeLeavesFirstProvider | src/PowerShellEditorServices/Analysis/AnalysisService.cs:105-121 | when creating the second provider fails, Dispose leaves the created first one undisposed |
| Analysis.DisposeCreatedDisposesFirstProvider | src/PowerShellEditorServices/Analysis/AnalysisService.cs:105-121 | with the corrected Dispose, that provider is disposed |
| Analysis.DisposeThrowsWithoutAnalyzer | src/PowerShellEditorServices/Analysis/AnalysisServiceProvider.cs:33-51 | a service whose providers were created without PSScriptAnalyzer throws a null reference on Dispose and disposes no provider |
| Analysis.DisposeCreatedWithoutAnalyzer | src/PowerShellEditorServices/Analysis/AnalysisServiceProvider.cs:33-51 | with the corrected Dispose, the same service is disposed without throwing |

## Left out

- The runspace itself is not modelled: invoking PowerShell, nested pipelines, `SessionStateProxy`, and the version-specific operations' bodies. Each execution attempt's result, the `$PSVersionTable` lookup, the `Get-ExecutionPolicy` results, runspace availability and the debugger's answer are parameters.
- The async machinery is not modelled: tasks, `TaskCompletionSource` results, the `Task.Delay(250)` between retries, and concurrent producers on the `AsyncQueue`. The queue is a sequence, and each completion is a number recorded when its request succeeds. A caller awaiting its completion, and the results the request produces, are not modelled.
- ExecutionQueue.ProcessSpec: an unbounded retry is represented by a finite sequence of runspace answers. A run that exhausts them stops with the head still queued, and "retries forever" is read off that.
- PowerShellSession.PowerShellContext.Initialize: the version lookup goes through `ExecuteWithRunspace` in the source and is a parameter here. The `GetHostVariable` lookup is left out. The `SetExecutionPolicy` commands are reported as the policy to set rather than queued.
- The start of `ProcessExecutionRequestQueue` in `Initialize` is commented out in the source, and so is the pipeline-execution design. The model keeps the drain method and proves it, but nothing calls it.
- The runspace-side setup is left out: `ConfigureDebugger`, the `BreakpointUpdated` forwarding, `AvailabilityChanged` logging, the OnIdle subscription, `SetWorkingDirectory` and `WritePromptWithRunspace`/`WritePromptWithNestedPipeline`. They only invoke the runspace or log. Only the prompt trim is modelled (`PromptText`).
- Output writing is left out: `WriteOutput`, `WriteError` and `WriteExceptionToHost`. Their sinks are commented out.
- Logging is left out throughout.
- PowerShellSession.PowerShellContext.OnDebuggerStop: the `DebuggerStop` event it raises to its subscribers is not modelled; only the debugger-stopped flag it sets is.
- PowerShellSession.PowerShellContext.ExecuteCommand: the caller's `PSCommand` is mutated in place by `SendOutputToHost`, and the model builds a new command list instead, so that aliasing is not captured.
- DscBreakpoints.DscBreakpointCapability.IsDscResourcePath: `CurrentCultureIgnoreCase` is replaced by an ASCII case fold.
- The `Import-Module`/`Get-DscResource` part of `DscBreakpointCapability.CheckForCapability` runs against a runspace and is not modelled. Only the assignment of the roots it gathers is (`GatherResourceRootPaths`).
- `BreakpointDetails` is not part of this model beyond its line number and `Verified` flag.
- Features.FeatureManager.AddFeature: the `ConcurrentDictionary` is used sequentially, and concurrent `AddOrUpdate` races are not modelled.
- `EditorDetails` is not part of this model.
- `GetPSScriptAnalyzerRules`, the analyzer itself and the providers' markers requests (`AnalysisServiceProvider.cs`) are not part of this model. The markers requests state which provider is asked and with which settings, not the markers found. Of the provider, only whether its constructor opened a runspace pool and its `Dispose` are modelled; `FindPSScriptAnalyzerModule` is the constructor's parameter.
- The enum `PowerShellContextState` is not part of this model's source. Its default value is taken to be `Unknown`, the first member, so a new context starts there.

## Findings

| source | as written | input that shows it | evidently intended | confidence | as-written member | corrected member |
|---|---|---|---|---|---|---|
| src/PowerShellEditorServices/Session/PowerShellContext.cs:285-298 | the flush dequeues a request, and when the runspace reports it busy (a PSInvalidOperationException) moves on to the next without requeuing it, so its completion is never set | queue [first, second], runspace answers [Busy, Success] | a busy request is retried, as ProcessExecutionRequestQueue does, instead of being dropped | medium, not executed | ExecutionQueue.BusyRequestIsDroppedByFlush | ExecutionQueue.FlushRetryingBusyLosesNothingToBusy |
| src/PowerShellEditorServices/Session/PowerShellContext.cs:740-757 | Dispose cancels `executionQueueCancellationToken`, which nothing assigns since its creation in Initialize is commented out, so every Dispose ends in a NullReferenceException after setting Disposed | a context that was constructed and initialised, then disposed | the cancellation source is cancelled only when it exists | high, not executed | PowerShellSession.DisposeAfterInitializeThrows | PowerShellSession.DisposeGuardedAfterInitialize |
| src/PowerShellEditorServices.Core/FeatureManager.cs:36-46 | AddFeature<TFeature> stores the feature under `featureImplementation.GetType()`, while GetFeature<TFeature> looks up `typeof(TFeature)`, so a feature added as an interface is never found under that interface | a logger whose class implements ILogFeature, added with AddFeature<ILogFeature> and asked for with GetLogFeature | the feature is stored under the declared type TFeature | high, not executed | Features.LogFeatureIsNotFound | Features.LogFeatureAddedAsInterfaceIsFound |
| src/PowerShellEditorServices/Analysis/AnalysisService.cs:214-221 | Dispose disposes the providers only when both exist, so when the second one fails to be created the first one is never disposed | creation where the formatting provider's constructor throws | every provider that was created is disposed | low, not executed | Analysis.DisposeLeavesFirstProvider | Analysis.DisposeCreatedDisposesFirstProvider |
| src/PowerShellEditorServices/Analysis/AnalysisServiceProvider.cs:48-51 | when PSScriptAnalyzer is not found the provider's constructor returns before creating its runspace pool, but the service is still enabled, and Dispose calls `runspacePool.Dispose()` on null | a service created where PSScriptAnalyzer is not installed, then disposed | a provider without a pool has nothing to release | medium, not executed | Analysis.DisposeThrowsWithoutAnalyzer | Analysis.DisposeCreatedWithoutAnalyzer |
| src/PowerShellEditorServices/Session/PowerShellContext.cs:1036-1038 | the test compares policies by their enum values, where Bypass is declared after Restricted, so a session running under Bypass counts as stricter than RemoteSigned and is set to RemoteSigned | Get-ExecutionPolicy answers Bypass on Windows | the policy is not raised above the current one, as the comment at line 1030 says, so a Bypass session stays Bypass | medium, not executed | RunspaceConfiguration.BypassSessionIsTightened | RunspaceConfiguration.CorrectedPolicyTestOnlyLowers |

=== FILE: Analysis.dfy ===
/**
 * AnalysisService: the front of PSScriptAnalyzer.  It holds the active rules, an
 * optional settings file and two analysis providers (one for diagnostics, one for
 * formatting), and decides which provider analyses a file with which settings.
 */
module Analysis {
  import opened Wrappers
  import opened Errors

  /**
   * AnalysisServiceProvider: a PSScriptAnalyzer runspace pool.  The constructor opens the
   * pool only when the PSScriptAnalyzer module is found; otherwise it returns early and
   * the pool stays null.  Only whether the pool was opened and disposed is modelled.
   */
  class AnalysisServiceProvider {
    var poolOpened: bool
    var disposed: bool

    constructor (analyzerFound: bool)
      ensures poolOpened == analyzerFound && !disposed
    {
      poolOpened := analyzerFound;
      disposed := false;
    }

    /** Dispose disposes the pool; with no pool it throws a NullReferenceException. */
    method Dispose() returns (raised: Option<DotNetException>)
      modifies this`disposed
      ensures poolOpened ==> raised == None && disposed
      ensures !poolOpened ==> raised == Some(NullReference) && disposed == old(disposed)
    {
      if !poolOpened {
        return Some(NullReference);
      }
      disposed := true;
      raised := None;
    }
  }

  /** The settings of one rule (a Hashtable the service passes through unread). */
  datatype RuleSettings = RuleSettings(entries: map<string, string>)

  /** A value of a PSScriptAnalyzer settings Hashtable. */
  datatype SettingsValue =
    | RuleNames(names: seq<string>)             // an object[] of rule names
    | RuleTable(rules: map<string, RuleSettings>)

  type SettingsHashtable = map<string, SettingsValue>

  const IncludeRulesKey: string := "IncludeRules"
  const RulesKey: string := "Rules"

  /** The rules analysed when no settings file is given. */
  const IncludedRules: seq<string> := [
    "PSUseToExportFieldsInManifest",
    "PSMisleadingBacktick",
    "PSAvoidUsingCmdletAliases",
    "PSUseApprovedVerbs",
    "PSAvoidUsingPlainTextForPassword",
    "PSReservedCmdletChar",
    "PSReservedParams",
    "PSShouldProcess",
    "PSMissingModuleManifestField",
    "PSAvoidDefaultValueSwitchParameter",
    "PSUseDeclaredVarsMoreThanAssigments"
  ]

  /** Which provider analyses a file, and with which settings. */
  datatype ProviderRole = DiagnosticsProvider | FormattingProvider

  datatype MarkersRequest =
    | NoMarkers                                                          // an empty ScriptFileMarker[]
    | AnalyzeWithSettingsFile(role: ProviderRole, settingsPath: string)
    | AnalyzeWithSettings(role: ProviderRole, settings: SettingsHashtable)

  /** How far the constructor got before `new AnalysisServiceProvider()` threw, if it did. */
  datatype ProviderCreation = BothCreated | FirstCreationFails | SecondCreationFails

  /** The keys of a rule-settings dictionary, in enumeration order. */
  function RuleKeys(ruleSettings: seq<(string, RuleSettings)>): (keys: seq<string>)
    ensures |keys| == |ruleSettings|
    ensures forall i :: 0 <= i < |ruleSettings| ==> keys[i] == ruleSettings[i].0
  {
    if ruleSettings == [] then [] else [ruleSettings[0].0] + RuleKeys(ruleSettings[1..])
  }

  /** Whether no key occurs twice (as in any IDictionary). */
  predicate DistinctKeys(ruleSettings: seq<(string, RuleSettings)>)
  {
    forall i, j :: 0 <= i < j < |ruleSettings| ==> ruleSettings[i].0 != ruleSettings[j].0
  }

  /**
   * GetPSSASettingsHashtable(ruleSettingsMap): `IncludeRules` lists the rule names in
   * the dictionary's order, and `Rules` maps each rule to its settings.
   */
  method GetPSSASettingsHashtable(ruleSettingsMap: seq<(string, RuleSettings)>) returns (hashtable: SettingsHashtable)
    requires DistinctKeys(ruleSettingsMap)
    ensures hashtable.Keys == {IncludeRulesKey, RulesKey}
    ensures hashtable[IncludeRulesKey] == RuleNames(RuleKeys(ruleSettingsMap))
    ensures hashtable[RulesKey].RuleTable?
    ensures forall name :: name in hashtable[RulesKey].rules <==> name in RuleKeys(ruleSettingsMap)
    ensures forall i :: 0 <= i < |ruleSettingsMap| ==> hashtable[RulesKey].rules[ruleSettingsMap[i].0] == ruleSettingsMap[i].1
  {
    var rules: map<string, RuleSettings> := map[];
    for i := 0 to |ruleSettingsMap|
      invariant forall name :: name in rules ==> exists j :: 0 <= j < i && ruleSettingsMap[j].0 == name
      invariant forall j :: 0 <= j < i ==> ruleSettingsMap[j].0 in rules && rules[ruleSettingsMap[j].0] == ruleSettingsMap[j].1
    {
      // Hashtable.Add: the key is new, because the dictionary's keys are distinct
      assert ruleSettingsMap[i].0 !in rules;
      rules := rules[ruleSettingsMap[i].0 := ruleSettingsMap[i].1];
    }
    hashtable := map[IncludeRulesKey := RuleNames(RuleKeys(ruleSettingsMap)), RulesKey := RuleTable(rules)];
  }

  class AnalysisService {
    var activeRules: seq<string>
    var settingsPath: Option<string>
    var analysisServiceProvider: Option<AnalysisServiceProvider>
    var formattingServiceProvider: Option<AnalysisServiceProvider>

    /** The providers the service holds. */
    function Providers(): set<AnalysisServiceProvider>
      reads this
    {
      (if analysisServiceProvider.Some? then {analysisServiceProvider.value} else {})
        + (if formattingServiceProvider.Some? then {formattingServiceProvider.value} else {})
    }

    /** The two providers, when both exist, are distinct objects. */
    ghost predicate Valid()
      reads this
    {
      IsEnabled() ==> analysisServiceProvider.value != formattingServiceProvider.value
    }

    /** isEnabled: both providers were created. */
    predicate IsEnabled(): (r: bool)
      reads this
      ensures r ==>
        && analysisServiceProvider.Some? && formattingServiceProvider.Some?
        && Providers() == {analysisServiceProvider.value, formattingServiceProvider.value}
      ensures !r ==> |Providers()| <= 1
    {
      analysisServiceProvider.Some? && formattingServiceProvider.Some?
    }

    /** useSettingsFile: a settings file path is set. */
    predicate UseSettingsFile(): (r: bool)
      reads this
      ensures r <==> settingsPath != None
      ensures settingsPath == Some([]) ==> r
    {
      settingsPath.Some?
    }

    /**
     * AnalysisService(consoleHost, settingsPath): the path and the default rules are
     * set, then the two providers are created; when creating one throws, the exception
     * is logged and the providers not yet created stay null, which disables the service.
     */
    constructor (settingsPath: Option<string>, creation: ProviderCreation, analyzerFound: bool)
      ensures Valid()
      ensures this.settingsPath == settingsPath && activeRules == IncludedRules
      ensures IsEnabled() <==> creation == BothCreated
      ensures analysisServiceProvider.Some? <==> creation != FirstCreationFails
      ensures forall p :: p in Providers() ==> fresh(p) && !p.disposed && p.poolOpened == analyzerFound
    {
      this.settingsPath := settingsPath;
      activeRules := IncludedRules;
      if creation == FirstCreationFails {
        analysisServiceProvider := None;
        formattingServiceProvider := None;
      } else {
        var analysis := new AnalysisServiceProvider(analyzerFound);
        analysisServiceProvider := Some(analysis);
        if creation == SecondCreationFails {
          formattingServiceProvider := None;
        } else {
          var formatting := new AnalysisServiceProvider(analyzerFound);
          formattingServiceProvider := Some(formatting);
        }
      }
    }

    /** The ActiveRules setter. */
    method SetActiveRules(rules: seq<string>)
      modifies this`activeRules
      ensures activeRules == rules
    {
      activeRules := rules;
    }

    /** The SettingsPath setter. */
    method SetSettingsPath(path: Option<string>)
      modifies this`settingsPath
      ensures settingsPath == path
    {
      settingsPath := path;
    }

    /** GetPSSASettingsHashtableFromActiveRules: only `IncludeRules`, listing the active rules. */
    function SettingsFromActiveRules(): (hashtable: SettingsHashtable)
      reads this
      ensures hashtable.Keys == {IncludeRulesKey}
      ensures hashtable[IncludeRulesKey] == RuleNames(activeRules)
    {
      map[IncludeRulesKey := RuleNames(activeRules)]
    }

    /**
     * GetSemanticMarkersAsync(file): nothing when the service is disabled; otherwise the
     * diagnostics provider analyses the file with the settings file if there is one,
     * and with the active rules if not.
     */
    function SemanticMarkersRequest(): (r: MarkersRequest)
      reads this
      ensures r.NoMarkers? <==> !IsEnabled()
      ensures r.AnalyzeWithSettingsFile? <==> IsEnabled() && UseSettingsFile()
      ensures r.AnalyzeWithSettingsFile? ==> r.role == DiagnosticsProvider && Some(r.settingsPath) == settingsPath
      ensures r.AnalyzeWithSettings? ==>
        r.role == DiagnosticsProvider && r.settings.Keys == {IncludeRulesKey} && r.settings[IncludeRulesKey] == RuleNames(activeRules)
    {
      if !IsEnabled() then NoMarkers
      else if UseSettingsFile() then AnalyzeWithSettingsFile(DiagnosticsProvider, settingsPath.value)
      else AnalyzeWithSettings(DiagnosticsProvider, SettingsFromActiveRules())
    }

    /** GetSemanticMarkersAsync(file, settings): the diagnostics provider, with the given settings. */
    function SemanticMarkersWithSettingsRequest(settings: SettingsHashtable): (r: MarkersRequest)
      reads this
      ensures r.NoMarkers? <==> !IsEnabled()
      ensures !r.NoMarkers? ==> r == AnalyzeWithSettings(DiagnosticsProvider, settings)
    {
      if IsEnabled() then AnalyzeWithSettings(DiagnosticsProvider, settings) else NoMarkers
    }

    /** GetSemanticMarkersForFormattingAsync(file, settings): the formatting provider, with the given settings. */
    function FormattingMarkersRequest(settings: SettingsHashtable): (r: MarkersRequest)
      reads this
      ensures r.NoMarkers? <==> !IsEnabled()
      ensures !r.NoMarkers? ==> r == AnalyzeWithSettings(FormattingProvider, settings)
    {
      if IsEnabled() then AnalyzeWithSettings(FormattingProvider, settings) else NoMarkers
    }

    /**
     * Dispose, as written: when the service is enabled the diagnostics provider, then the
     * formatting provider, is disposed; an exception of the first ends the call before
     * the second.  A disabled service disposes nothing.
     */
    method Dispose() returns (raised: Option<DotNetException>)
      requires Valid()
      modifies Providers()`disposed
      ensures !IsEnabled() ==> raised == None && forall p :: p in Providers() ==> p.disposed == old(p.disposed)
      ensures IsEnabled() ==>
        var analysis, formatting := analysisServiceProvider.value, formattingServiceProvider.value;
        && raised == (if analysis.poolOpened && formatting.poolOpened then None else Some(NullReference))
        && analysis.disposed == (analysis.poolOpened || old(analysis.disposed))
        && formatting.disposed == ((analysis.poolOpened && formatting.poolOpened) || old(formatting.disposed))
    {
      raised := None;
      if IsEnabled() {
        raised := analysisServiceProvider.value.Dispose();
        if raised.None? {
          raised := formattingServiceProvider.value.Dispose();
        }
      }
    }

    /**
     * Dispose as evidently intended: every provider that was created and opened its
     * pool is disposed, and nothing throws.
     */
    method DisposeCreated() returns (raised: Option<DotNetException>)
      requires Valid()
      modifies Providers()`disposed
      ensures raised == None
      ensures forall p :: p in Providers() ==> p.disposed == (p.poolOpened || old(p.disposed))
    {
      if analysisServiceProvider.Some? && analysisServiceProvider.value.poolOpened {
        var _ := analysisServiceProvider.value.Dispose();
      }
      if formattingServiceProvider.Some? && formattingServiceProvider.value.poolOpened {
        var _ := formattingServiceProvider.value.Dispose();
      }
      raised := None;
    }
  }

  /** A service built with the defaults and no settings file analyses with the eleven default rules. */
  lemma DefaultRequestUsesIncludedRules(service: AnalysisService)
    requires service.IsEnabled() && service.settingsPath.None? && service.activeRules == IncludedRules
    ensures service.SemanticMarkersRequest() == AnalyzeWithSettings(DiagnosticsProvider, map[IncludeRulesKey := RuleNames(IncludedRules)])
  {
  }

  /** A disabled service asks no provider for anything, whatever it is asked. */
  lemma DisabledServiceAnalysesNothing(service: AnalysisService, settings: SettingsHashtable)
    requires !service.IsEnabled()
    ensures service.SemanticMarkersRequest() == NoMarkers
    ensures service.SemanticMarkersWithSettingsRequest(settings) == NoMarkers
    ensures service.FormattingMarkersRequest(settings) == NoMarkers
  {
  }

  /**
   * When only the second provider cannot be created, Dispose leaves the first one,
   * which was created, undisposed.
   */
  method DisposeLeavesFirstProvider() returns (firstDisposed: bool)
    ensures !firstDisposed
  {
    var service := new AnalysisService(None, SecondCreationFails, true);
    var first := service.analysisServiceProvider.value;
    var _ := service.Dispose();
    firstDisposed := first.disposed;
  }

  /** With DisposeCreated the same provider is disposed. */
  method DisposeCreatedDisposesFirstProvider() returns (firstDisposed: bool)
    ensures firstDisposed
  {
    var service := new AnalysisService(None, SecondCreationFails, true);
    var first := service.analysisServiceProvider.value;
    assert first in service.Providers();
    var _ := service.DisposeCreated();
    firstDisposed := first.disposed;
  }

  /**
   * Without PSScriptAnalyzer both providers are created with no pool, so the service
   * counts as enabled and Dispose throws at the first provider, disposing neither.
   */
  method DisposeThrowsWithoutAnalyzer() returns (raised: Option<DotNetException>, anyDisposed: bool)
    ensures raised == Some(NullReference) && !anyDisposed
  {
    var service := new AnalysisService(None, BothCreated, false);
    var first, second := service.analysisServiceProvider.value, service.formattingServiceProvider.value;
    assert first in service.Providers() && second in service.Providers();
    raised := service.Dispose();
    anyDisposed := first.disposed || second.disposed;
  }

  /** With DisposeCreated, the same service is disposed without an exception. */
  method DisposeCreatedWithoutAnalyzer() returns (raised: Option<DotNetException>)
    ensures raised == None
  {
    var service := new AnalysisService(None, BothCreated, false);
    raised := service.DisposeCreated();
  }
}

=== FILE: Commands.dfy ===
/**
 * The PSCommand pipelines PowerShellContext builds: the output command appended
 * when output goes to the host, and the command ExecuteScriptAtPath runs.
 */
module Commands {
  import opened Wrappers
  import opened Errors
  import PathEscaping

  /** One System.Management.Automation.Runspaces.Command of a PSCommand pipeline. */
  datatype Command = Command(
    text: string,
    isScript: bool,
    useLocalScope: bool,
    parameters: seq<string>,
    mergeErrorsIntoOutput: bool)

  /** `PSCommand.AddScript(text)`. */
  function ScriptCommand(text: string): Command
  {
    Command(text, true, false, [], false)
  }

  /** `PSCommand.AddCommand(name)`. */
  function NamedCommand(name: string): Command
  {
    Command(name, false, false, [], false)
  }

  /**
   * GetOutputCommand: `Out-String -Stream` while the debugger is stopped (so that the
   * output comes back as strings), `Out-Default` otherwise; always in local scope.
   */
  function GetOutputCommand(debuggerStopped: bool): (c: Command)
    ensures !c.isScript && c.useLocalScope && !c.mergeErrorsIntoOutput
    ensures debuggerStopped ==> c.text == "Out-String" && c.parameters == ["Stream"]
    ensures !debuggerStopped ==> c.text == "Out-Default" && c.parameters == []
  {
    Command(if debuggerStopped then "Out-String" else "Out-Default", false, true,
            if debuggerStopped then ["Stream"] else [], false)
  }

  /**
   * What ExecuteCommand does to the pipeline when `sendOutputToHost` is set: the first
   * command merges its error stream into its output, and the output command is added
   * at the end.  An empty pipeline has no first command: the indexer throws.
   */
  function SendOutputToHost(commands: seq<Command>, debuggerStopped: bool): (r: Result<seq<Command>, DotNetException>)
    ensures commands == [] <==> r == Err(ArgumentOutOfRange)
    ensures r.Ok? ==> |r.value| == |commands| + 1
    ensures r.Ok? ==> r.value[0] == commands[0].(mergeErrorsIntoOutput := true)
    ensures r.Ok? ==> r.value[1..|commands|] == commands[1..]
    ensures r.Ok? ==> r.value[|commands|] == GetOutputCommand(debuggerStopped)
  {
    if commands == [] then Err(ArgumentOutOfRange)
    else Ok([commands[0].(mergeErrorsIntoOutput := true)] + commands[1..] + [GetOutputCommand(debuggerStopped)])
  }

  /**
   * The pipeline ExecuteScriptAtPath runs: with arguments, a script made of the path
   * escaped for `[`, `]` and spaces, a space and the arguments; without, the path as a
   * command name.
   */
  function ScriptAtPathCommands(scriptPath: string, arguments: Option<string>): (r: seq<Command>)
    ensures |r| == 1 && (r[0].isScript <==> arguments.Some?)
    ensures arguments.None? ==> r[0] == NamedCommand(scriptPath)
    ensures arguments.Some? ==>
      var escaped := PathEscaping.EscapePath(scriptPath, true);
      && |escaped| < |r[0].text|
      && r[0].text[..|escaped|] == escaped
      && r[0].text[|escaped|..] == " " + arguments.value
  {
    match arguments
    case Some(args) =>
      var escaped := PathEscaping.EscapePath(scriptPath, true);
      var text := escaped + (" " + args);
      assert text[..|escaped|] == escaped && text[|escaped|..] == " " + args;
      [ScriptCommand(text)]
    case None => [NamedCommand(scriptPath)]
  }
}

=== FILE: DscBreakpoints.dfy ===
/**
 * DscBreakpointCapability: the DSC resource breakpoints of a session.  The capability
 * remembers the breakpoint lines of every file, renders them into one
 * `Enable-DscDebug -Breakpoints` script (or `Disable-DscDebug` when none are left), and
 * runs that script through the PowerShellContext.
 */
module DscBreakpoints {
  import opened Wrappers
  import opened Errors
  import opened Commands
  import opened ExecutionQueue
  import opened PowerShellSession

  /** The two members of BreakpointDetails the capability uses. */
  class BreakpointDetails {
    var lineNumber: int
    var verified: bool

    constructor (line: int)
      ensures lineNumber == line && !verified
    {
      lineNumber := line;
      verified := false;
    }
  }

  /** The line numbers of `breakpoints`, in order (`breakpoints.Select(b => b.LineNumber)`). */
  function LineNumbers(breakpoints: seq<BreakpointDetails>): (lines: seq<int>)
    reads breakpoints
    ensures |lines| == |breakpoints|
    ensures forall i :: 0 <= i < |breakpoints| ==> lines[i] == breakpoints[i].lineNumber
  {
    if breakpoints == [] then [] else [breakpoints[0].lineNumber] + LineNumbers(breakpoints[1..])
  }

  // ---------------------------------------------------------------------------
  // Rendering numbers and lists

  predicate IsDigit(c: char)
  {
    '0' <= c <= '9'
  }

  function DigitChar(d: nat): (c: char)
    requires d < 10
    ensures IsDigit(c) && c as int - '0' as int == d
  {
    (('0' as int) + d) as char
  }

  /** The decimal digits of `n`, most significant first, without leading zeros. */
  function NatToString(n: nat): (s: string)
    ensures |s| > 0 && forall i :: 0 <= i < |s| ==> IsDigit(s[i])
    decreases n
  {
    if n < 10 then [DigitChar(n)] else NatToString(n / 10) + [DigitChar(n % 10)]
  }

  /** The value of a string of decimal digits. */
  function DigitsValue(s: string): nat
    requires forall i :: 0 <= i < |s| ==> IsDigit(s[i])
  {
    if s == [] then 0
    else
      assert IsDigit(s[|s| - 1]);
      10 * DigitsValue(s[..|s| - 1]) + (s[|s| - 1] as int - '0' as int)
  }

  lemma {:induction false} NatToStringRoundTrip(n: nat)
    ensures DigitsValue(NatToString(n)) == n
    decreases n
  {
    if n >= 10 {
      NatToStringRoundTrip(n / 10);
      var s := NatToString(n);
      assert s[..|s| - 1] == NatToString(n / 10);
    }
  }

  /** Int32.ToString(): an optional minus sign and the decimal digits. */
  function IntToString(n: int): (s: string)
    ensures |s| > 0 && ',' !in s
  {
    if n < 0 then "-" + NatToString(-n) else NatToString(n)
  }

  /** Reads back a number written by IntToString. */
  function ParseInt(s: string): int
  {
    if |s| > 0 && s[0] == '-' && forall i :: 1 <= i < |s| ==> IsDigit(s[i]) then -(DigitsValue(s[1..]) as int)
    else if forall i :: 0 <= i < |s| ==> IsDigit(s[i]) then DigitsValue(s)
    else 0
  }

  lemma IntToStringRoundTrip(n: int)
    ensures ParseInt(IntToString(n)) == n
  {
    if n < 0 {
      NatToStringRoundTrip(-n);
      assert IntToString(n)[1..] == NatToString(-n);
    } else {
      NatToStringRoundTrip(n);
      assert IsDigit(IntToString(n)[0]);
    }
  }

  /** String.Join(separator, parts). */
  function Join(separator: string, parts: seq<string>): (r: string)
    ensures parts == [] ==> r == []
    ensures |parts| == 1 ==> r == parts[0]
  {
    if parts == [] then []
    else if |parts| == 1 then parts[0]
    else parts[0] + separator + Join(separator, parts[1..])
  }

  /** Joining parts that are not empty gives an empty string only when there are no parts. */
  lemma JoinEmptyOnlyWithoutParts(separator: string, parts: seq<string>)
    requires forall i :: 0 <= i < |parts| ==> |parts[i]| > 0
    ensures |Join(separator, parts)| == 0 <==> parts == []
  {
    if |parts| > 1 {
      assert |parts[0]| > 0;
    }
  }

  /** The numbers rendered one by one. */
  function IntStrings(lines: seq<int>): (parts: seq<string>)
    ensures |parts| == |lines|
    ensures forall i :: 0 <= i < |lines| ==> parts[i] == IntToString(lines[i])
  {
    if lines == [] then [] else [IntToString(lines[0])] + IntStrings(lines[1..])
  }

  /** The comma-separated line list inside `Line=@(...)`. */
  function LinesText(lines: seq<int>): string
  {
    Join(",", IntStrings(lines))
  }

  /** The position of the first comma of `s`, or |s| when there is none. */
  function IndexOfComma(s: string): (i: nat)
    ensures i <= |s| && ',' !in s[..i]
    ensures i < |s| ==> s[i] == ','
  {
    if s == [] then 0
    else if s[0] == ',' then 0
    else
      var k := IndexOfComma(s[1..]);
      assert s[..k + 1] == [s[0]] + s[1..][..k];
      k + 1
  }

  /** Reads back a comma-separated list of numbers. */
  function ParseLines(s: string): seq<int>
    decreases |s|
  {
    if s == [] then []
    else
      var i := IndexOfComma(s);
      if i == |s| then [ParseInt(s)] else [ParseInt(s[..i])] + ParseLines(s[i + 1..])
  }

  lemma IndexOfCommaAfter(a: string, b: string)
    requires ',' !in a
    ensures IndexOfComma(a + "," + b) == |a|
    ensures IndexOfComma(a) == |a|
  {
    if a != [] {
      assert (a + "," + b)[1..] == a[1..] + "," + b;
      IndexOfCommaAfter(a[1..], b);
    }
  }

  /** Round trip: the rendered line list reads back as the lines. */
  lemma {:induction false} LinesTextRoundTrip(lines: seq<int>)
    ensures ParseLines(LinesText(lines)) == lines
  {
    if |lines| == 1 {
      var s := IntToString(lines[0]);
      IndexOfCommaAfter(s, "");
      IntToStringRoundTrip(lines[0]);
    } else if |lines| > 1 {
      var head, tail := IntToString(lines[0]), LinesText(lines[1..]);
      assert IntStrings(lines)[1..] == IntStrings(lines[1..]);
      assert LinesText(lines) == head + "," + tail;
      IndexOfCommaAfter(head, tail);
      assert (head + "," + tail)[..|head|] == head;
      assert (head + "," + tail)[|head| + 1..] == tail;
      IntToStringRoundTrip(lines[0]);
      LinesTextRoundTrip(lines[1..]);
    }
  }

  /** One file's hashtable: `@{Path="<path>";Line=@(<l1>,<l2>,...)}`. */
  function Entry(path: string, lines: seq<int>): (e: string)
    ensures |e| > 0
  {
    "@{Path=\"" + path + "\";Line=@(" + LinesText(lines) + ")}"
  }

  /** The hashtables of `files`, in order. */
  function Entries(files: seq<string>, breakpoints: map<string, seq<int>>): (entries: seq<string>)
    requires forall i :: 0 <= i < |files| ==> files[i] in breakpoints
    ensures |entries| == |files|
    ensures forall i :: 0 <= i < |files| ==> entries[i] == Entry(files[i], breakpoints[files[i]])
  {
    if files == [] then [] else [Entry(files[0], breakpoints[files[0]])] + Entries(files[1..], breakpoints)
  }

  const EnableCommand: string := "Enable-DscDebug -Breakpoints "
  const DisableCommand: string := "Disable-DscDebug"

  /** The script run for a rendered hashtable list: enable with it, or disable when it is empty. */
  function ScriptFor(hashtables: string): (script: string)
    ensures |hashtables| > 0 ==> script == EnableCommand + hashtables
    ensures |hashtables| == 0 ==> script == DisableCommand
  {
    if |hashtables| > 0 then EnableCommand + hashtables else DisableCommand
  }

  // ---------------------------------------------------------------------------
  // The Dictionary<string, int[]> enumeration order

  /** The keys held by the occupied slots, in slot order. */
  function Occupied(slots: seq<Option<string>>): (keys: seq<string>)
    ensures forall k :: k in keys <==> Some(k) in slots
  {
    if slots == [] then []
    else (if slots[0].Some? then [slots[0].value] else []) + Occupied(slots[1..])
  }

  /** Whether no key is held by two slots. */
  ghost predicate DistinctSlots(slots: seq<Option<string>>)
  {
    forall i, j :: 0 <= i < j < |slots| && slots[i].Some? ==> slots[i] != slots[j]
  }

  lemma {:induction false} OccupiedDistinct(slots: seq<Option<string>>)
    requires DistinctSlots(slots)
    ensures forall i, j :: 0 <= i < j < |Occupied(slots)| ==> Occupied(slots)[i] != Occupied(slots)[j]
  {
    if slots != [] {
      OccupiedDistinct(slots[1..]);
      if slots[0].Some? {
        assert Some(slots[0].value) !in slots[1..] by {
          forall j | 0 <= j < |slots[1..]| ensures slots[1..][j] != slots[0] {
            assert slots[1..][j] == slots[j + 1];
          }
        }
      }
    }
  }

  /**
   * The slots after `keys[path] := lines` on a dictionary whose slots were `slots0` and
   * free list `free0`: an existing key keeps its slot; a new key takes the most recently
   * freed slot, or a new slot at the end.
   */
  ghost predicate SlotsAfterStore(keys: map<string, seq<int>>, slots0: seq<Option<string>>, free0: seq<nat>,
                                  path: string, slots1: seq<Option<string>>, free1: seq<nat>)
  {
    && (path in keys ==> slots1 == slots0 && free1 == free0)
    && (path !in keys && free0 != [] ==>
          var free := free0[|free0| - 1];
          && free < |slots0|
          && slots1 == slots0[free := Some(path)]
          && free1 == free0[..|free0| - 1])
    && (path !in keys && free0 == [] ==> slots1 == slots0 + [Some(path)] && free1 == [])
  }

  /**
   * The slots after `keys.Remove(path)`: the key's slot is emptied and pushed on the free
   * list; a missing key changes nothing.
   */
  ghost predicate SlotsAfterRemove(keys: map<string, seq<int>>, slots0: seq<Option<string>>, free0: seq<nat>,
                                   path: string, slots1: seq<Option<string>>, free1: seq<nat>)
  {
    && (path in keys ==>
          && SlotOf(slots0, path) < |slots0|
          && slots1 == slots0[SlotOf(slots0, path) := None]
          && free1 == free0 + [SlotOf(slots0, path)])
    && (path !in keys ==> slots1 == slots0 && free1 == free0)
  }

  /** The first slot holding `key`, or |slots| when none does. */
  function SlotOf(slots: seq<Option<string>>, key: string): (i: nat)
    ensures i <= |slots|
    ensures i < |slots| <==> Some(key) in slots
    ensures i < |slots| ==> slots[i] == Some(key)
  {
    if slots == [] then 0
    else if slots[0] == Some(key) then 0
    else SlotOf(slots[1..], key) + 1
  }

  /** A ", "-separated rendering of every file's breakpoints, in dictionary order. */
  function HashtableText(files: seq<string>, breakpoints: map<string, seq<int>>): (text: string)
    requires forall i :: 0 <= i < |files| ==> files[i] in breakpoints
    ensures |text| == 0 <==> files == []
  {
    JoinEmptyOnlyWithoutParts(", ", Entries(files, breakpoints));
    Join(", ", Entries(files, breakpoints))
  }

  class DscBreakpointCapability {
    var dscResourceRootPaths: seq<string>
    var breakpointsPerFile: map<string, seq<int>>
    /** The dictionary's entry array: the key of each slot, in enumeration order. */
    var slots: seq<Option<string>>
    /** The dictionary's free list: the most recently freed slot is last and is reused first. */
    var freeSlots: seq<nat>

    ghost predicate Valid()
      reads this
    {
      && DistinctSlots(slots)
      && (forall k :: k in breakpointsPerFile <==> Some(k) in slots)
      && (forall i :: 0 <= i < |slots| ==> (slots[i].None? <==> i in freeSlots))
      && (forall n :: n in freeSlots ==> n < |slots|)
      && (forall i, j :: 0 <= i < j < |freeSlots| ==> freeSlots[i] != freeSlots[j])
    }

    /** The files with breakpoints, in the order the dictionary enumerates them. */
    function Files(): (files: seq<string>)
      reads this
      requires Valid()
      ensures forall f :: f in files <==> f in breakpointsPerFile
      ensures forall i :: 0 <= i < |files| ==> files[i] in breakpointsPerFile
    {
      Occupied(slots)
    }

    /** The script SetLineBreakpoints runs for the breakpoints currently stored. */
    function DebugScript(): (script: string)
      reads this
      requires Valid()
      ensures breakpointsPerFile == map[] ==> script == DisableCommand
      ensures breakpointsPerFile != map[] ==> EnableCommand <= script
    {
      var files := Files();
      assert files != [] ==> files[0] in breakpointsPerFile;
      ScriptFor(HashtableText(files, breakpointsPerFile))
    }

    constructor ()
      ensures Valid()
      ensures dscResourceRootPaths == [] && breakpointsPerFile == map[]
      ensures slots == [] && freeSlots == []
    {
      dscResourceRootPaths := [];
      breakpointsPerFile := map[];
      slots := [];
      freeSlots := [];
    }

    /**
     * The end of CheckForCapability: the ParentPath of every DSC resource becomes a
     * resource root; when Get-DscResource failed the roots stay as they were.
     */
    method GatherResourceRootPaths(resourcePaths: Option<seq<string>>)
      modifies this`dscResourceRootPaths
      ensures resourcePaths.Some? ==> dscResourceRootPaths == resourcePaths.value
      ensures resourcePaths.None? ==> dscResourceRootPaths == old(dscResourceRootPaths)
    {
      if resourcePaths.Some? {
        dscResourceRootPaths := resourcePaths.value;
      }
    }

    /**
     * `breakpointsPerFile[path] = lines`: an existing key keeps its slot; a new key takes
     * the most recently freed slot, or a new slot at the end.
     */
    method Store(path: string, lines: seq<int>)
      requires Valid()
      modifies this`breakpointsPerFile, this`slots, this`freeSlots
      ensures Valid()
      ensures breakpointsPerFile == old(breakpointsPerFile)[path := lines]
      ensures SlotsAfterStore(old(breakpointsPerFile), old(slots), old(freeSlots), path, slots, freeSlots)
    {
      if path !in breakpointsPerFile {
        if freeSlots != [] {
          var free := freeSlots[|freeSlots| - 1];
          assert free in freeSlots;
          assert Some(path) !in slots;
          slots := slots[free := Some(path)];
          forall i, j | 0 <= i < j < |slots| && slots[i].Some? ensures slots[i] != slots[j] {
            if i != free && j != free {
              assert slots[i] == old(slots)[i] && slots[j] == old(slots)[j];
            } else if i == free {
              assert slots[j] == old(slots)[j];
            } else {
              assert slots[i] == old(slots)[i];
            }
          }
          forall k ensures k in breakpointsPerFile[path := lines] <==> Some(k) in slots {
            if k == path {
              assert slots[free] == Some(path);
            } else if k in breakpointsPerFile {
              var i := SlotOf(old(slots), k);
              assert i != free && slots[i] == Some(k);
            }
          }
          freeSlots := freeSlots[..|freeSlots| - 1];
          assert old(freeSlots) == freeSlots + [free];
          forall n | n in freeSlots ensures n < |slots| {
            assert n in old(freeSlots);
          }
          forall i, j | 0 <= i < j < |freeSlots| ensures freeSlots[i] != freeSlots[j] {
            assert freeSlots[i] == old(freeSlots)[i] && freeSlots[j] == old(freeSlots)[j];
          }
          forall i | 0 <= i < |slots| ensures slots[i].None? <==> i in freeSlots {
            if i != free {
              assert slots[i] == old(slots)[i];
              assert i in old(freeSlots) <==> i in freeSlots by {
                assert old(freeSlots) == freeSlots + [free];
              }
            }
          }
        } else {
          assert Some(path) !in slots;
          slots := slots + [Some(path)];
          forall i, j | 0 <= i < j < |slots| && slots[i].Some? ensures slots[i] != slots[j] {
            if j < |old(slots)| {
              assert slots[i] == old(slots)[i] && slots[j] == old(slots)[j];
            } else {
              assert slots[i] == old(slots)[i];
            }
          }
          forall i | 0 <= i < |old(slots)| ensures slots[i].None? <==> i in freeSlots {
            assert slots[i] == old(slots)[i];
          }
          forall k ensures k in breakpointsPerFile[path := lines] <==> Some(k) in slots {
            if k == path {
              assert slots[|slots| - 1] == Some(path);
            } else if k in breakpointsPerFile {
              var i := SlotOf(old(slots), k);
              assert slots[i] == Some(k);
            }
          }
        }
      }
      breakpointsPerFile := breakpointsPerFile[path := lines];
    }

    /** `breakpointsPerFile.Remove(path)`: the key's slot is emptied and goes on the free list. */
    method Remove(path: string)
      requires Valid()
      modifies this`breakpointsPerFile, this`slots, this`freeSlots
      ensures Valid()
      ensures breakpointsPerFile == old(breakpointsPerFile) - {path}
      ensures SlotsAfterRemove(old(breakpointsPerFile), old(slots), old(freeSlots), path, slots, freeSlots)
    {
      if path in breakpointsPerFile {
        var slot := SlotOf(slots, path);
        assert slot !in freeSlots;
        slots := slots[slot := None];
        freeSlots := freeSlots + [slot];
        breakpointsPerFile := breakpointsPerFile - {path};
        forall k ensures k in breakpointsPerFile <==> Some(k) in slots {
          if k == path {
            forall i | 0 <= i < |slots| ensures slots[i] != Some(path) {
              if i != slot {
                assert slots[i] == old(slots)[i];
              }
            }
          } else if k in breakpointsPerFile {
            var i := SlotOf(old(slots), k);
            assert slots[i] == Some(k);
          } else {
            assert Some(k) !in old(slots);
          }
        }
      }
    }

    /** The first step of SetLineBreakpoints: store the file's lines, or forget the file when it has none. */
    method UpdateFile(scriptPath: string, lines: seq<int>)
      requires Valid()
      modifies this`breakpointsPerFile, this`slots, this`freeSlots
      ensures Valid()
      ensures lines != [] ==> breakpointsPerFile == old(breakpointsPerFile)[scriptPath := lines]
      ensures lines == [] ==> breakpointsPerFile == old(breakpointsPerFile) - {scriptPath}
      ensures lines != [] ==> SlotsAfterStore(old(breakpointsPerFile), old(slots), old(freeSlots), scriptPath, slots, freeSlots)
      ensures lines == [] ==> SlotsAfterRemove(old(breakpointsPerFile), old(slots), old(freeSlots), scriptPath, slots, freeSlots)
    {
      if |lines| > 0 {
        Store(scriptPath, lines);
      } else {
        Remove(scriptPath);
      }
    }

    /** Runs DebugScript() with ExecuteScriptString, its output not sent to the host. */
    method RunDebugScript(context: PowerShellContext, availability: RunspaceAvailability, debugger: DebuggerAnswer)
      returns (outcome: CommandOutcome)
      requires Valid() && context.Valid()
      modifies context`executionRequestQueue, context`nextCompletion
      ensures context.Valid()
      ensures outcome.Queued? <==> context.sessionState != Unknown && availability != AvailableForNestedCommand
      ensures outcome.Queued? ==>
        && outcome.completion == old(context.nextCompletion)
        && context.nextCompletion == old(context.nextCompletion) + 1
        && context.executionRequestQueue == old(context.executionRequestQueue)
             + [QueuedRequest(CommandRequest([ScriptCommand(DebugScript())]), old(context.nextCompletion))]
      ensures !outcome.Queued? ==>
        context.executionRequestQueue == old(context.executionRequestQueue) && context.nextCompletion == old(context.nextCompletion)
      ensures outcome.Threw? <==> (context.sessionState == Unknown ||
        (availability == AvailableForNestedCommand && context.isDebuggerStopped && context.versionSpecificOperations.None?))
    {
      outcome := context.ExecuteScriptString(DebugScript(), false, availability, debugger);
    }

    /** The part of SetLineBreakpoints before the breakpoints are marked: UpdateFile, then RunDebugScript. */
    method UpdateAndRun(context: PowerShellContext, scriptPath: string, lines: seq<int>,
                        availability: RunspaceAvailability, debugger: DebuggerAnswer)
      returns (outcome: CommandOutcome)
      requires Valid() && context.Valid()
      modifies this`breakpointsPerFile, this`slots, this`freeSlots
      modifies context`executionRequestQueue, context`nextCompletion
      ensures Valid() && context.Valid()
      ensures lines != [] ==> breakpointsPerFile == old(breakpointsPerFile)[scriptPath := lines]
      ensures lines == [] ==> breakpointsPerFile == old(breakpointsPerFile) - {scriptPath}
      ensures lines != [] ==> SlotsAfterStore(old(breakpointsPerFile), old(slots), old(freeSlots), scriptPath, slots, freeSlots)
      ensures lines == [] ==> SlotsAfterRemove(old(breakpointsPerFile), old(slots), old(freeSlots), scriptPath, slots, freeSlots)
      ensures outcome.Queued? <==> context.sessionState != Unknown && availability != AvailableForNestedCommand
      ensures outcome.Queued? ==>
        && context.nextCompletion == old(context.nextCompletion) + 1
        && context.executionRequestQueue == old(context.executionRequestQueue)
             + [QueuedRequest(CommandRequest([ScriptCommand(DebugScript())]), old(context.nextCompletion))]
      ensures !outcome.Queued? ==>
        context.executionRequestQueue == old(context.executionRequestQueue) && context.nextCompletion == old(context.nextCompletion)
      ensures outcome.Threw? <==> (context.sessionState == Unknown ||
        (availability == AvailableForNestedCommand && context.isDebuggerStopped && context.versionSpecificOperations.None?))
    {
      UpdateFile(scriptPath, lines);
      outcome := RunDebugScript(context, availability, debugger);
    }

    /**
     * SetLineBreakpoints: store the file's breakpoint lines (or forget the file when it
     * has none), run the script for all stored breakpoints, then mark every breakpoint
     * verified and return them.  When running the script throws, the exception escapes
     * with the lines already stored and no breakpoint marked.
     */
    method SetLineBreakpoints(context: PowerShellContext, scriptPath: string, breakpoints: array<BreakpointDetails>,
                              availability: RunspaceAvailability, debugger: DebuggerAnswer)
      returns (result: Result<seq<BreakpointDetails>, DotNetException>)
      requires Valid() && context.Valid()
      modifies this`breakpointsPerFile, this`slots, this`freeSlots
      modifies context`executionRequestQueue, context`nextCompletion
      modifies breakpoints[..]
      ensures Valid() && context.Valid()
      ensures breakpoints.Length > 0 ==>
        breakpointsPerFile == old(breakpointsPerFile)[scriptPath := old(LineNumbers(breakpoints[..]))]
      ensures breakpoints.Length == 0 ==> breakpointsPerFile == old(breakpointsPerFile) - {scriptPath}
      ensures breakpoints.Length > 0 ==>
        SlotsAfterStore(old(breakpointsPerFile), old(slots), old(freeSlots), scriptPath, slots, freeSlots)
      ensures breakpoints.Length == 0 ==>
        SlotsAfterRemove(old(breakpointsPerFile), old(slots), old(freeSlots), scriptPath, slots, freeSlots)
      ensures context.sessionState != Unknown && availability != AvailableForNestedCommand ==>
        && context.nextCompletion == old(context.nextCompletion) + 1
        && context.executionRequestQueue == old(context.executionRequestQueue)
             + [QueuedRequest(CommandRequest([ScriptCommand(DebugScript())]), old(context.nextCompletion))]
      ensures context.sessionState == Unknown || availability == AvailableForNestedCommand ==>
        context.executionRequestQueue == old(context.executionRequestQueue) && context.nextCompletion == old(context.nextCompletion)
      ensures result.Err? <==> (context.sessionState == Unknown ||
        (availability == AvailableForNestedCommand && context.isDebuggerStopped && context.versionSpecificOperations.None?))
      ensures result.Ok? ==> result.value == breakpoints[..]
      ensures forall i :: 0 <= i < breakpoints.Length ==>
        && breakpoints[i].lineNumber == old(breakpoints[i].lineNumber)
        && breakpoints[i].verified == (result.Ok? || old(breakpoints[i].verified))
    {
      var lines := LineNumbers(breakpoints[..]);
      assert lines != [] <==> breakpoints.Length > 0;
      var outcome := UpdateAndRun(context, scriptPath, lines, availability, debugger);
      result := VerifyUnlessThrown(outcome, breakpoints);
    }

    /**
     * IsDscResourcePath: whether the path starts with one of the resource roots,
     * ignoring case.
     */
    function IsDscResourcePath(scriptPath: string): (r: bool)
      reads this
      ensures r <==> exists i :: 0 <= i < |dscResourceRootPaths| && StartsWithIgnoringCase(scriptPath, dscResourceRootPaths[i])
    {
      AnyRootPrefixes(dscResourceRootPaths, scriptPath)
    }
  }

  /**
   * The end of SetLineBreakpoints: an exception from running the script escapes with no
   * breakpoint marked; otherwise every breakpoint is marked verified and returned.
   */
  method VerifyUnlessThrown(outcome: CommandOutcome, breakpoints: array<BreakpointDetails>)
    returns (result: Result<seq<BreakpointDetails>, DotNetException>)
    modifies breakpoints[..]
    ensures result.Err? <==> outcome.Threw?
    ensures result.Err? ==> result.error == outcome.exception
    ensures result.Ok? ==> result.value == breakpoints[..]
    ensures forall i :: 0 <= i < breakpoints.Length ==>
      && breakpoints[i].lineNumber == old(breakpoints[i].lineNumber)
      && breakpoints[i].verified == (result.Ok? || old(breakpoints[i].verified))
  {
    if outcome.Threw? {
      return Err(outcome.exception);
    }
    MarkVerified(breakpoints);
    result := Ok(breakpoints[..]);
  }

  /** `foreach (var breakpoint in breakpoints) breakpoint.Verified = true;` */
  method MarkVerified(breakpoints: array<BreakpointDetails>)
    modifies breakpoints[..]
    ensures forall i :: 0 <= i < breakpoints.Length ==>
      breakpoints[i].verified && breakpoints[i].lineNumber == old(breakpoints[i].lineNumber)
  {
    for i := 0 to breakpoints.Length
      invariant forall j :: 0 <= j < breakpoints.Length ==> breakpoints[j].lineNumber == old(breakpoints[j].lineNumber)
      invariant forall j :: 0 <= j < i ==> breakpoints[j].verified
    {
      breakpoints[i].verified := true;
    }
  }

  /** The script for no stored breakpoints disables DSC debugging, and only that one does. */
  lemma DisableOnlyWithoutBreakpoints(capability: DscBreakpointCapability)
    requires capability.Valid()
    ensures capability.DebugScript() == DisableCommand <==> capability.breakpointsPerFile == map[]
  {
    var files := capability.Files();
    if files != [] {
      assert files[0] in capability.breakpointsPerFile;
      var text := HashtableText(files, capability.breakpointsPerFile);
      assert (EnableCommand + text)[0] != DisableCommand[0];
    } else {
      forall f ensures f !in capability.breakpointsPerFile {
        assert f !in files;
      }
    }
  }

  /** The enabling script lists every stored file exactly once. */
  lemma EveryFileListedOnce(capability: DscBreakpointCapability)
    requires capability.Valid()
    ensures forall f :: f in capability.Files() <==> f in capability.breakpointsPerFile
    ensures forall i, j :: 0 <= i < j < |capability.Files()| ==> capability.Files()[i] != capability.Files()[j]
    ensures forall i :: 0 <= i < |capability.Files()| ==>
      Entries(capability.Files(), capability.breakpointsPerFile)[i]
        == Entry(capability.Files()[i], capability.breakpointsPerFile[capability.Files()[i]])
  {
    OccupiedDistinct(capability.slots);
  }

  /** ASCII case folding, the model of the culture's case-insensitive comparison. */
  function Fold(c: char): char
  {
    if 'A' <= c <= 'Z' then (c as int - 'A' as int + 'a' as int) as char else c
  }

  /** `s.StartsWith(prefix, CurrentCultureIgnoreCase)`, with ASCII case folding. */
  predicate StartsWithIgnoringCase(s: string, prefix: string): (r: bool)
    ensures r ==> |prefix| <= |s|
    ensures prefix <= s ==> r
  {
    |prefix| <= |s| && forall i :: 0 <= i < |prefix| ==> Fold(s[i]) == Fold(prefix[i])
  }

  /** `roots.Any(root => path.StartsWith(root, ...))`. */
  function AnyRootPrefixes(roots: seq<string>, path: string): (r: bool)
    ensures r <==> exists i :: 0 <= i < |roots| && StartsWithIgnoringCase(path, roots[i])
  {
    if roots == [] then false
    else if StartsWithIgnoringCase(path, roots[0]) then true
    else
      var r := AnyRootPrefixes(roots[1..], path);
      assert r ==> exists i :: 0 <= i < |roots| && StartsWithIgnoringCase(path, roots[i]) by {
        if r {
          var i :| 0 <= i < |roots[1..]| && StartsWithIgnoringCase(path, roots[1..][i]);
          assert roots[i + 1] == roots[1..][i];
        }
      }
      assert (exists i :: 0 <= i < |roots| && StartsWithIgnoringCase(path, roots[i])) ==> r by {
        if exists i :: 0 <= i < |roots| && StartsWithIgnoringCase(path, roots[i]) {
          var i :| 0 <= i < |roots| && StartsWithIgnoringCase(path, roots[i]);
          assert i != 0;
          assert roots[1..][i - 1] == roots[i];
        }
      }
      r
  }

  /** The path with every letter folded. */
  function FoldAll(s: string): (r: string)
    ensures |r| == |s| && forall i :: 0 <= i < |s| ==> r[i] == Fold(s[i])
  {
    if s == [] then [] else [Fold(s[0])] + FoldAll(s[1..])
  }

  /** Whether a path is a DSC resource path does not depend on the case of its letters. */
  lemma IsDscResourcePathIgnoresCase(capability: DscBreakpointCapability, scriptPath: string)
    ensures capability.IsDscResourcePath(scriptPath) == capability.IsDscResourcePath(FoldAll(scriptPath))
  {
    var roots := capability.dscResourceRootPaths;
    forall i | 0 <= i < |roots|
      ensures StartsWithIgnoringCase(scriptPath, roots[i]) == StartsWithIgnoringCase(FoldAll(scriptPath), roots[i])
    {
      forall j | 0 <= j < |roots[i]| && j < |scriptPath|
        ensures Fold(FoldAll(scriptPath)[j]) == Fold(scriptPath[j])
      {
      }
    }
  }

  /** Every path below a resource root (compared as written) is a DSC resource path. */
  lemma ResourceRootsArePrefixes(capability: DscBreakpointCapability, scriptPath: string, k: nat)
    requires k < |capability.dscResourceRootPaths|
    requires capability.dscResourceRootPaths[k] <= scriptPath
    ensures capability.IsDscResourcePath(scriptPath)
  {
    assert StartsWithIgnoringCase(scriptPath, capability.dscResourceRootPaths[k]);
  }
}

=== FILE: Errors.dfy ===
/** The .NET exceptions the modelled code raises, as values. */
module Errors {

  datatype DotNetException =
    | InvalidOperation(message: string)   // System.InvalidOperationException
    | NotSupportedVersion(major: nat)     // System.NotSupportedException for an unsupported PowerShell version
    | NullReference                       // System.NullReferenceException
    | ArgumentOutOfRange                  // System.ArgumentOutOfRangeException from a collection indexer
}

=== FILE: ExecutionQueue.dfy ===
/**
 * The execution request queue of PowerShellContext and its two drain procedures,
 * as functions of the queue and of what the runspace answers.
 *
 * The runspace is not modelled: every attempt to execute a request yields one
 * ExecutionOutcome, and a drain is given the outcomes of its successive attempts as a
 * finite sequence (the runspace's behaviour over the period observed).  A drain also
 * stops when that sequence is used up.
 */
module ExecutionQueue {
  import opened Wrappers
  import opened Commands

  /** The three IExecutionRequest kinds. */
  datatype ExecutionRequest =
    | RunspaceActionRequest                   // RunspaceExecutionRequest: an Action<Runspace>
    | RunspaceFuncRequest                     // RunspaceExecutionRequest<TResult>: a Func<Runspace, TResult>
    | CommandRequest(commands: seq<Command>)  // CommandExecutionRequest<TResult>: a PSCommand

  /** A queue element: the request and the TaskCompletionSource its caller awaits. */
  datatype QueuedRequest = QueuedRequest(request: ExecutionRequest, completion: nat)

  /** How one execution attempt ends. */
  datatype ExecutionOutcome =
    | Success           // Execute returned; the completion is set
    | Busy              // PSInvalidOperationException thrown by DoConcurrentCheck: the runspace was busy
    | InvalidOperation  // any other PSInvalidOperationException
    | Fault             // any other exception: it escapes the drain

  /**
   * The effect of one drain: the requests left in the queue (`rest`), those whose
   * completion was set, in order (`completed`), those taken off the queue without their
   * completion being set (`discarded`), whether an exception escaped (`faulted`), and how
   * many outcomes were used.
   */
  datatype DrainResult = DrainResult(
    rest: seq<QueuedRequest>,
    completed: seq<QueuedRequest>,
    discarded: seq<QueuedRequest>,
    faulted: bool,
    attempts: nat)

  /** The completion handles of `queue`, in queue order. */
  function Completions(queue: seq<QueuedRequest>): (ids: seq<nat>)
    ensures |ids| == |queue|
    ensures forall i :: 0 <= i < |queue| ==> ids[i] == queue[i].completion
  {
    if queue == [] then [] else [queue[0].completion] + Completions(queue[1..])
  }

  lemma CompletionsAppend(a: seq<QueuedRequest>, b: seq<QueuedRequest>)
    ensures Completions(a + b) == Completions(a) + Completions(b)
  {
  }

  /** The number of successful attempts in `outcomes`. */
  function CountSuccess(outcomes: seq<ExecutionOutcome>): nat
  {
    if outcomes == [] then 0 else (if outcomes[0] == Success then 1 else 0) + CountSuccess(outcomes[1..])
  }

  /** Whether `outcomes` contains no Fault. */
  predicate NoFault(outcomes: seq<ExecutionOutcome>)
  {
    forall k :: 0 <= k < |outcomes| ==> outcomes[k] != Fault
  }

  // ---------------------------------------------------------------------------
  // FlushExecutionRequestQueue (PowerShellContext.cs:271-307), run by the OnIdle handler

  /**
   * Each iteration dequeues a request and executes it once.  A success sets its
   * completion and ends the flush; a PSInvalidOperationException, busy or not, leaves the
   * request dequeued and unset and goes on with the next one; any other exception ends
   * the flush with the request dequeued and unset.
   */
  function FlushSpec(queue: seq<QueuedRequest>, outcomes: seq<ExecutionOutcome>): (r: DrainResult)
    ensures |r.completed| <= 1 && (r.faulted ==> r.completed == [])
    decreases |queue|
  {
    if queue == [] || outcomes == [] then DrainResult(queue, [], [], false, 0)
    else
      match outcomes[0]
      case Success => DrainResult(queue[1..], [queue[0]], [], false, 1)
      case Fault => DrainResult(queue[1..], [], [queue[0]], true, 1)
      case _ =>
        var r := FlushSpec(queue[1..], outcomes[1..]);
        r.(discarded := [queue[0]] + r.discarded, attempts := r.attempts + 1)
  }

  /** What one flush does, stated over the whole run. */
  ghost predicate FlushShape(queue: seq<QueuedRequest>, outcomes: seq<ExecutionOutcome>, r: DrainResult)
  {
    // the queue is consumed from the front, in order
    && queue == r.discarded + r.completed + r.rest
    // one attempt per dequeued request
    && r.attempts == |r.discarded| + |r.completed| <= |outcomes|
    // at most one completion is set, by the last attempt
    && |r.completed| <= 1
    && (r.completed != [] ==> outcomes[r.attempts - 1] == Success)
    && (r.faulted <==> r.attempts > 0 && outcomes[r.attempts - 1] == Fault)
    && (r.faulted ==> r.completed == [])
    // every earlier attempt threw a PSInvalidOperationException
    && (forall k :: 0 <= k < r.attempts - 1 ==> outcomes[k] == Busy || outcomes[k] == InvalidOperation)
    // the flush stops only at a success, at an escaping exception, or when nothing is left
    && (r.completed == [] && !r.faulted ==> r.rest == [] || r.attempts == |outcomes|)
  }

  /** One flush sets at most one completion and discards every request it tried before. */
  lemma {:induction false} FlushStopsAtFirstSuccess(queue: seq<QueuedRequest>, outcomes: seq<ExecutionOutcome>)
    ensures FlushShape(queue, outcomes, FlushSpec(queue, outcomes))
    decreases |queue|
  {
    if queue != [] && outcomes != [] {
      match outcomes[0]
      case Success =>
        assert queue == [] + [queue[0]] + queue[1..];
      case Fault =>
        assert queue == [queue[0]] + [] + queue[1..];
      case _ =>
        FlushStopsAtFirstSuccess(queue[1..], outcomes[1..]);
        FlushShapeAfterBusy(queue, outcomes, FlushSpec(queue[1..], outcomes[1..]));
    }
  }

  /** A request rejected with a PSInvalidOperationException extends the shape of the rest of the flush. */
  lemma FlushShapeAfterBusy(queue: seq<QueuedRequest>, outcomes: seq<ExecutionOutcome>, r: DrainResult)
    requires queue != [] && outcomes != [] && (outcomes[0] == Busy || outcomes[0] == InvalidOperation)
    requires FlushShape(queue[1..], outcomes[1..], r)
    ensures FlushShape(queue, outcomes, r.(discarded := [queue[0]] + r.discarded, attempts := r.attempts + 1))
  {
    var r' := r.(discarded := [queue[0]] + r.discarded, attempts := r.attempts + 1);
    assert queue == [queue[0]] + queue[1..];
    assert r'.discarded + r'.completed + r'.rest == [queue[0]] + (r.discarded + r.completed + r.rest);
    if r.attempts > 0 {
      assert outcomes[r'.attempts - 1] == outcomes[1..][r.attempts - 1];
    }
    forall k | 0 <= k < r'.attempts - 1
      ensures outcomes[k] == Busy || outcomes[k] == InvalidOperation
    {
      if k > 0 { assert outcomes[k] == outcomes[1..][k - 1]; }
    }
  }

  /** The queue is the discarded requests, then the completed one, then the rest. */
  lemma {:induction false} FlushSplitsQueue(queue: seq<QueuedRequest>, outcomes: seq<ExecutionOutcome>)
    ensures queue == FlushSpec(queue, outcomes).discarded + (FlushSpec(queue, outcomes).completed + FlushSpec(queue, outcomes).rest)
    decreases |queue|
  {
    if queue != [] && outcomes != [] && outcomes[0] in {Busy, InvalidOperation} {
      FlushSplitsQueue(queue[1..], outcomes[1..]);
      var r := FlushSpec(queue[1..], outcomes[1..]);
      assert queue == [queue[0]] + (r.discarded + (r.completed + r.rest));
    }
  }

  // ---------------------------------------------------------------------------
  // ProcessExecutionRequestQueue (PowerShellContext.cs:230-269): the consumer loop,
  // whose start-up in Initialize is commented out

  /**
   * Each request at the head is executed until it succeeds: a PSInvalidOperationException,
   * busy or not, retries the same request (the busy case after a delay); a success sets
   * its completion and moves on to the next request; any other exception ends the loop
   * with the request dequeued and unset.  Cancellation is not modelled: the loop ends
   * when the queue is empty or the outcomes are used up.
   */
  function ProcessSpec(queue: seq<QueuedRequest>, outcomes: seq<ExecutionOutcome>): (r: DrainResult)
    ensures |r.discarded| <= 1 && (r.discarded != [] <==> r.faulted)
    decreases |outcomes|
  {
    if queue == [] || outcomes == [] then DrainResult(queue, [], [], false, 0)
    else
      match outcomes[0]
      case Success =>
        var r := ProcessSpec(queue[1..], outcomes[1..]);
        r.(completed := [queue[0]] + r.completed, attempts := r.attempts + 1)
      case Fault => DrainResult(queue[1..], [], [queue[0]], true, 1)
      case _ =>
        var r := ProcessSpec(queue, outcomes[1..]);
        r.(attempts := r.attempts + 1)
  }

  /** What one run of the consumer loop does, stated over the whole run. */
  ghost predicate ProcessShape(queue: seq<QueuedRequest>, outcomes: seq<ExecutionOutcome>, r: DrainResult)
  {
    // requests complete in enqueue order; only an escaping exception drops one
    && queue == r.completed + r.discarded + r.rest
    && |r.discarded| <= 1
    && (r.discarded != [] <==> r.faulted)
    // the loop stops only at an escaping exception, on an empty queue or with the outcomes used up
    && r.attempts <= |outcomes|
    && (r.faulted ==> r.attempts > 0)
    && (!r.faulted ==> r.rest == [] || r.attempts == |outcomes|)
    // one completion per successful attempt
    && |r.completed| == CountSuccess(outcomes[..r.attempts])
    // an escaping exception is the last attempt, and no earlier one threw it
    && (r.faulted ==> outcomes[r.attempts - 1] == Fault && NoFault(outcomes[..r.attempts - 1]))
    && (!r.faulted ==> NoFault(outcomes[..r.attempts]))
  }

  /** The run partitions the queue: completed requests first, then at most one dropped one. */
  lemma {:induction false} ProcessPartition(queue: seq<QueuedRequest>, outcomes: seq<ExecutionOutcome>)
    ensures var r := ProcessSpec(queue, outcomes);
      && queue == r.completed + r.discarded + r.rest
      && |r.discarded| <= 1
      && (r.discarded != [] <==> r.faulted)
      && r.attempts <= |outcomes|
      && (r.faulted ==> r.attempts > 0)
      && (!r.faulted ==> r.rest == [] || r.attempts == |outcomes|)
    decreases |outcomes|
  {
    if queue != [] && outcomes != [] && outcomes[0] != Fault {
      if outcomes[0] == Success {
        ProcessPartition(queue[1..], outcomes[1..]);
        var r := ProcessSpec(queue[1..], outcomes[1..]);
        assert queue == [queue[0]] + (r.completed + r.discarded + r.rest);
      } else {
        ProcessPartition(queue, outcomes[1..]);
      }
    }
  }

  /** The queue is the completed requests, then the discarded ones, then the rest. */
  lemma ProcessSplitsQueue(queue: seq<QueuedRequest>, outcomes: seq<ExecutionOutcome>)
    ensures queue == ProcessSpec(queue, outcomes).completed + ProcessSpec(queue, outcomes).discarded + ProcessSpec(queue, outcomes).rest
  {
    ProcessPartition(queue, outcomes);
  }

  lemma CountSuccessCons(outcomes: seq<ExecutionOutcome>, n: nat)
    requires 0 < n <= |outcomes|
    ensures CountSuccess(outcomes[..n]) == (if outcomes[0] == Success then 1 else 0) + CountSuccess(outcomes[1..][..n - 1])
  {
    assert outcomes[..n][0] == outcomes[0];
    assert outcomes[..n][1..] == outcomes[1..][..n - 1];
  }

  /** Every successful attempt of the run completes exactly one request. */
  lemma {:induction false} ProcessCountsSuccesses(queue: seq<QueuedRequest>, outcomes: seq<ExecutionOutcome>)
    ensures ProcessSpec(queue, outcomes).attempts <= |outcomes|
    ensures |ProcessSpec(queue, outcomes).completed| == CountSuccess(outcomes[..ProcessSpec(queue, outcomes).attempts])
    decreases |outcomes|
  {
    var r := ProcessSpec(queue, outcomes);
    if queue == [] || outcomes == [] {
      assert outcomes[..0] == [];
    } else if outcomes[0] == Fault {
      CountSuccessCons(outcomes, 1);
      assert outcomes[1..][..0] == [];
    } else if outcomes[0] == Success {
      ProcessCountsSuccesses(queue[1..], outcomes[1..]);
      CountSuccessCons(outcomes, r.attempts);
    } else {
      ProcessCountsSuccesses(queue, outcomes[1..]);
      CountSuccessCons(outcomes, r.attempts);
    }
  }

  lemma NoFaultCons(outcomes: seq<ExecutionOutcome>, n: nat)
    requires 0 < n <= |outcomes|
    ensures NoFault(outcomes[..n]) <==> outcomes[0] != Fault && NoFault(outcomes[1..][..n - 1])
  {
    assert outcomes[..n] == [outcomes[0]] + outcomes[1..][..n - 1];
    if outcomes[0] != Fault && NoFault(outcomes[1..][..n - 1]) {
      forall k | 0 <= k < n ensures outcomes[..n][k] != Fault {
        if k > 0 { assert outcomes[..n][k] == outcomes[1..][..n - 1][k - 1]; }
      }
    }
  }

  /** Only the last attempt of a run can throw an escaping exception. */
  lemma {:induction false} ProcessFaultEndsRun(queue: seq<QueuedRequest>, outcomes: seq<ExecutionOutcome>)
    ensures var r := ProcessSpec(queue, outcomes);
      && r.attempts <= |outcomes|
      && (r.faulted ==> r.attempts > 0 && outcomes[r.attempts - 1] == Fault && NoFault(outcomes[..r.attempts - 1]))
      && (!r.faulted ==> NoFault(outcomes[..r.attempts]))
    decreases |outcomes|
  {
    var r := ProcessSpec(queue, outcomes);
    if queue == [] || outcomes == [] {
      assert outcomes[..0] == [];
    } else if outcomes[0] == Fault {
      assert outcomes[..0] == [];
    } else {
      var tail := outcomes[1..];
      var r1 := if outcomes[0] == Success then ProcessSpec(queue[1..], tail) else ProcessSpec(queue, tail);
      if outcomes[0] == Success {
        ProcessFaultEndsRun(queue[1..], tail);
      } else {
        ProcessFaultEndsRun(queue, tail);
      }
      assert r.attempts == r1.attempts + 1 && r.faulted == r1.faulted;
      NoFaultCons(outcomes, r.attempts);
      if r.faulted {
        NoFaultCons(outcomes, r.attempts - 1);
        assert outcomes[r.attempts - 1] == tail[r1.attempts - 1];
      }
    }
  }

  /** The consumer loop completes requests strictly in enqueue order, one per success. */
  lemma ProcessCompletesInOrder(queue: seq<QueuedRequest>, outcomes: seq<ExecutionOutcome>)
    ensures ProcessShape(queue, outcomes, ProcessSpec(queue, outcomes))
  {
    ProcessPartition(queue, outcomes);
    ProcessCountsSuccesses(queue, outcomes);
    ProcessFaultEndsRun(queue, outcomes);
  }

  /**
   * A busy (or otherwise invalid-operation) runspace never makes the consumer loop
   * advance: while every attempt fails that way, the head request is retried and nothing
   * is completed or dropped.
   */
  lemma {:induction false} ProcessRetriesHeadWhileRejected(queue: seq<QueuedRequest>, outcomes: seq<ExecutionOutcome>)
    requires queue != []
    requires forall k :: 0 <= k < |outcomes| ==> outcomes[k] == Busy || outcomes[k] == InvalidOperation
    ensures ProcessSpec(queue, outcomes) == DrainResult(queue, [], [], false, |outcomes|)
    decreases |outcomes|
  {
    if outcomes != [] {
      ProcessRetriesHeadWhileRejected(queue, outcomes[1..]);
    }
  }

  /**
   * With no escaping exception and at least as many successes as requests, the consumer
   * loop completes every request, in enqueue order, however often the runspace was busy.
   */
  lemma {:induction false} ProcessDrainsEverything(queue: seq<QueuedRequest>, outcomes: seq<ExecutionOutcome>)
    requires NoFault(outcomes)
    requires CountSuccess(outcomes) >= |queue|
    ensures ProcessSpec(queue, outcomes).completed == queue
    ensures ProcessSpec(queue, outcomes).rest == []
    decreases |outcomes|
  {
    if queue != [] {
      assert outcomes != [];
      assert NoFault(outcomes[1..]) by {
        forall k | 0 <= k < |outcomes[1..]| ensures outcomes[1..][k] != Fault { assert outcomes[1..][k] == outcomes[k + 1]; }
      }
      if outcomes[0] == Success {
        ProcessDrainsEverything(queue[1..], outcomes[1..]);
      } else {
        assert outcomes[0] != Fault;
        ProcessDrainsEverything(queue, outcomes[1..]);
      }
    }
  }

  // ---------------------------------------------------------------------------
  // Successive OnIdle events (PowerShellContext.cs:364-372): one flush per event

  /**
   * The flushes of successive idle events, one list of runspace answers per event: each
   * event flushes the queue the previous one left.
   */
  function FlushRounds(queue: seq<QueuedRequest>, rounds: seq<seq<ExecutionOutcome>>): (r: DrainResult)
    ensures |r.completed| <= |rounds|
    decreases |rounds|
  {
    if rounds == [] then DrainResult(queue, [], [], false, 0)
    else
      var r := FlushSpec(queue, rounds[0]);
      var t := FlushRounds(r.rest, rounds[1..]);
      DrainResult(t.rest, r.completed + t.completed, r.discarded + t.discarded, r.faulted || t.faulted, r.attempts + t.attempts)
  }

  /**
   * When the first attempt of every idle event succeeds and there are at least as many
   * events as requests, every request is completed, in the order it was queued.
   */
  lemma {:induction false} SuccessfulIdleEventsDrainInOrder(queue: seq<QueuedRequest>, rounds: seq<seq<ExecutionOutcome>>)
    requires |rounds| >= |queue|
    requires forall i :: 0 <= i < |rounds| ==> rounds[i] != [] && rounds[i][0] == Success
    ensures FlushRounds(queue, rounds).completed == queue
    ensures FlushRounds(queue, rounds).discarded == [] && FlushRounds(queue, rounds).rest == []
    decreases |rounds|
  {
    if rounds != [] {
      var later := rounds[1..];
      assert forall i :: 0 <= i < |later| ==> later[i] == rounds[i + 1];
      if queue == [] {
        assert FlushSpec([], rounds[0]) == DrainResult([], [], [], false, 0);
        SuccessfulIdleEventsDrainInOrder([], later);
      } else {
        assert FlushSpec(queue, rounds[0]) == DrainResult(queue[1..], [queue[0]], [], false, 1);
        SuccessfulIdleEventsDrainInOrder(queue[1..], later);
        assert queue == [queue[0]] + queue[1..];
      }
    }
  }

  /** ExecuteScriptString(script): the script, its errors merged into its output, then the output command. */
  function ScriptToHost(script: string, debuggerStopped: bool): (commands: seq<Command>)
    ensures SendOutputToHost([ScriptCommand(script)], debuggerStopped) == Ok(commands)
  {
    var commands := [ScriptCommand(script)];
    assert [commands[0].(mergeErrorsIntoOutput := true)] + commands[1..] + [GetOutputCommand(debuggerStopped)]
      == [ScriptCommand(script).(mergeErrorsIntoOutput := true), GetOutputCommand(debuggerStopped)];
    [ScriptCommand(script).(mergeErrorsIntoOutput := true), GetOutputCommand(debuggerStopped)]
  }

  /**
   * The queue of the session test that runs requests in parallel: three scripts queued
   * by ExecuteScriptString, then a pipeline reading `$x` queued by ExecuteCommand
   * without output to the host, with consecutive completions from `first`.
   */
  function ParallelTestQueue(debuggerStopped: bool, first: nat): (queue: seq<QueuedRequest>)
    ensures |queue| == 4 && Completions(queue) == [first, first + 1, first + 2, first + 3]
  {
    [QueuedRequest(CommandRequest(ScriptToHost("$x = 100", debuggerStopped)), first),
     QueuedRequest(CommandRequest(ScriptToHost("$x += 200", debuggerStopped)), first + 1),
     QueuedRequest(CommandRequest(ScriptToHost("$x = $x / 100", debuggerStopped)), first + 2),
     QueuedRequest(CommandRequest([ScriptCommand("$x")]), first + 3)]
  }

  /**
   * The session test's four requests, drained by idle events whose first attempt
   * succeeds, run in the order they were queued, so the read sees (100 + 200) / 100 = 3.
   */
  lemma ParallelRequestsRunInOrder(debuggerStopped: bool, first: nat, rounds: seq<seq<ExecutionOutcome>>)
    requires |rounds| >= 4
    requires forall i :: 0 <= i < |rounds| ==> rounds[i] != [] && rounds[i][0] == Success
    ensures FlushRounds(ParallelTestQueue(debuggerStopped, first), rounds).completed == ParallelTestQueue(debuggerStopped, first)
    ensures FlushRounds(ParallelTestQueue(debuggerStopped, first), rounds).rest == []
  {
    SuccessfulIdleEventsDrainInOrder(ParallelTestQueue(debuggerStopped, first), rounds);
  }

  /**
   * A busy answer on the first idle event loses the first request: it is discarded,
   * the other three complete, and the read no longer follows `$x = 100`.
   */
  lemma BusyAnswerLosesParallelRequest(debuggerStopped: bool, first: nat)
    ensures var queue := ParallelTestQueue(debuggerStopped, first);
      var r := FlushRounds(queue, [[Busy, Success], [Success], [Success]]);
      && r.discarded == [queue[0]]
      && r.completed == queue[1..]
      && r.rest == []
  {
    var queue := ParallelTestQueue(debuggerStopped, first);
    assert FlushSpec(queue, [Busy, Success]) == DrainResult(queue[2..], [queue[1]], [queue[0]], false, 2);
    assert FlushSpec(queue[2..], [Success]) == DrainResult(queue[3..], [queue[2]], [], false, 1);
    assert FlushSpec(queue[3..], [Success]) == DrainResult([], [queue[3]], [], false, 1);
  }

  // ---------------------------------------------------------------------------
  // A flush that keeps a busy request (the correction of FlushSpec)

  /**
   * FlushSpec with a busy request retried in place, as ProcessSpec does, instead of
   * being dropped: a busy attempt leaves the request at the head of the queue.
   */
  function FlushRetryingBusy(queue: seq<QueuedRequest>, outcomes: seq<ExecutionOutcome>): (r: DrainResult)
    ensures |r.completed| <= 1 && (r.faulted ==> r.completed == [])
    decreases |outcomes|
  {
    if queue == [] || outcomes == [] then DrainResult(queue, [], [], false, 0)
    else
      match outcomes[0]
      case Success => DrainResult(queue[1..], [queue[0]], [], false, 1)
      case Fault => DrainResult(queue[1..], [], [queue[0]], true, 1)
      case Busy =>
        var r := FlushRetryingBusy(queue, outcomes[1..]);
        r.(attempts := r.attempts + 1)
      case InvalidOperation =>
        var r := FlushRetryingBusy(queue[1..], outcomes[1..]);
        r.(discarded := [queue[0]] + r.discarded, attempts := r.attempts + 1)
  }

  /** The number of attempts in `outcomes` that are not Busy and not Success. */
  function CountDropping(outcomes: seq<ExecutionOutcome>): nat
  {
    if outcomes == [] then 0
    else (if outcomes[0] in {InvalidOperation, Fault} then 1 else 0) + CountDropping(outcomes[1..])
  }

  /**
   * The corrected flush still consumes the queue from the front and sets at most one
   * completion, and no request is lost to a busy runspace: it drops exactly one request
   * per attempt that threw something other than the busy exception.
   */
  lemma {:induction false} FlushRetryingBusyLosesNothingToBusy(queue: seq<QueuedRequest>, outcomes: seq<ExecutionOutcome>)
    ensures var r := FlushRetryingBusy(queue, outcomes);
      && queue == r.discarded + r.completed + r.rest
      && |r.completed| <= 1
      && r.attempts <= |outcomes|
      && |r.discarded| == CountDropping(outcomes[..r.attempts])
    decreases |outcomes|
  {
    var r := FlushRetryingBusy(queue, outcomes);
    if queue == [] || outcomes == [] {
      assert outcomes[..0] == [];
    } else {
      var tail := outcomes[1..];
      match outcomes[0]
      case Success =>
        assert outcomes[..1][1..] == [];
      case Fault =>
        assert outcomes[..1][1..] == [];
      case Busy =>
        FlushRetryingBusyLosesNothingToBusy(queue, tail);
        var r1 := FlushRetryingBusy(queue, tail);
        assert outcomes[..r.attempts][1..] == tail[..r1.attempts];
      case InvalidOperation =>
        FlushRetryingBusyLosesNothingToBusy(queue[1..], tail);
        var r1 := FlushRetryingBusy(queue[1..], tail);
        assert outcomes[..r.attempts][1..] == tail[..r1.attempts];
        assert r.discarded + r.completed + r.rest == [queue[0]] + (r1.discarded + r1.completed + r1.rest);
    }
  }

  /**
   * The discrepancy: with the runspace busy once, the flush as written drops the first
   * request, whose caller then waits forever, and completes the second; the corrected
   * flush completes the first.
   */
  lemma BusyRequestIsDroppedByFlush(first: QueuedRequest, second: QueuedRequest)
    ensures FlushSpec([first, second], [Busy, Success]) == DrainResult([], [second], [first], false, 2)
    ensures FlushRetryingBusy([first, second], [Busy, Success]) == DrainResult([second], [first], [], false, 2)
  {
    assert [first, second][1..] == [second];
    assert [second][1..] == [];
    assert [Busy, Success][1..] == [Success];
  }
}

=== FILE: Features.dfy ===
/**
 * FeatureManager: the editor's feature registry.  Features are objects indexed by the
 * assembly-qualified name of a type; the first object registered under a name stays.
 */
module Features {
  import opened Wrappers
  import opened Errors

  /**
   * A feature object: the name of its runtime class and the names of the classes and
   * interfaces it also is an instance of.
   */
  datatype FeatureObject = FeatureObject(runtimeType: string, supertypes: set<string>, identity: nat)

  /** FeatureAddedEventArgs: the type of the feature added. */
  datatype FeatureAddedEventArgs = FeatureAddedEventArgs(featureType: string)

  /** The type name of the ILogFeature interface (its namespace and name). */
  const LogFeatureType: string := "Microsoft.PowerShell.EditorServices.Logging.ILogFeature"

  /** `obj is T` for the type named `typeName`. */
  predicate IsInstanceOf(obj: FeatureObject, typeName: string)
  {
    obj.runtimeType == typeName || typeName in obj.supertypes
  }

  /**
   * `AddOrUpdate(key, feature, (key, currentValue) => currentValue)`: a new key gets the
   * feature; an existing key keeps its object.
   */
  function Register(index: map<string, FeatureObject>, key: string, feature: FeatureObject): (r: map<string, FeatureObject>)
    ensures r.Keys == index.Keys + {key}
    ensures forall k :: k in index ==> r[k] == index[k]
    ensures key !in index ==> r[key] == feature
  {
    if key in index then index else index[key := feature]
  }

  /** `TryGetValue(typeName)` followed by `as TFeature`. */
  function Lookup(index: map<string, FeatureObject>, typeName: string): (r: Option<FeatureObject>)
    ensures r.Some? <==> typeName in index && IsInstanceOf(index[typeName], typeName)
    ensures r.Some? ==> r.value == index[typeName]
  {
    if typeName in index && IsInstanceOf(index[typeName], typeName) then Some(index[typeName]) else None
  }

  /** Registering under a key that is taken changes nothing: the first registration wins. */
  lemma FirstRegistrationWins(index: map<string, FeatureObject>, key: string, first: FeatureObject, second: FeatureObject)
    ensures Register(Register(index, key, first), key, second) == Register(index, key, first)
    ensures Register(Register(index, key, first), key, second)[key] == (if key in index then index[key] else first)
  {
  }

  /** Registering under other keys does not change what a key looks up to. */
  lemma RegisterKeepsOtherLookups(index: map<string, FeatureObject>, key: string, feature: FeatureObject, typeName: string)
    requires typeName != key
    ensures Lookup(Register(index, key, feature), typeName) == Lookup(index, typeName)
  {
  }

  /** Every object stored is an instance of the type its key names. */
  ghost predicate WellTyped(index: map<string, FeatureObject>)
  {
    forall k :: k in index ==> IsInstanceOf(index[k], k)
  }

  /** In a well-typed index, a lookup finds exactly the stored object. */
  lemma LookupFindsStored(index: map<string, FeatureObject>, typeName: string)
    requires WellTyped(index)
    ensures Lookup(index, typeName) == if typeName in index then Some(index[typeName]) else None
  {
  }

  class FeatureManager {
    var featureIndex: map<string, FeatureObject>

    ghost predicate Valid()
      reads this
    {
      WellTyped(featureIndex)
    }

    constructor ()
      ensures Valid() && featureIndex == map[]
    {
      featureIndex := map[];
    }

    /**
     * AddFeature<TFeature>(featureImplementation): the feature is registered under the
     * name of its runtime class; a null feature throws when its type is asked for.
     */
    method AddFeature(feature: Option<FeatureObject>) returns (raised: Option<DotNetException>)
      requires Valid()
      modifies this
      ensures Valid()
      ensures feature.None? ==> raised == Some(NullReference) && featureIndex == old(featureIndex)
      ensures feature.Some? ==>
        raised == None && featureIndex == Register(old(featureIndex), feature.value.runtimeType, feature.value)
    {
      if feature.None? {
        return Some(NullReference);
      }
      featureIndex := Register(featureIndex, feature.value.runtimeType, feature.value);
      raised := None;
    }

    /**
     * AddFeature<TFeature, TWrapper>(featureImplementation, scriptingWrapper, path):
     * the wrapper and the path are not used; the feature is registered as above.
     */
    method AddFeatureWithWrapper(feature: Option<FeatureObject>, scriptingWrapper: Option<FeatureObject>, wrapperPropertyPath: Option<string>)
      returns (raised: Option<DotNetException>)
      requires Valid()
      modifies this
      ensures Valid()
      ensures feature.None? ==> raised == Some(NullReference) && featureIndex == old(featureIndex)
      ensures feature.Some? ==>
        raised == None && featureIndex == Register(old(featureIndex), feature.value.runtimeType, feature.value)
    {
      raised := AddFeature(feature);
    }

    /**
     * The registration AddFeature<TFeature> evidently intends: under the name of the
     * declared type TFeature, which is the name GetFeature<TFeature> looks up.
     */
    method AddFeatureAs(declaredType: string, feature: Option<FeatureObject>) returns (raised: Option<DotNetException>)
      requires Valid()
      requires feature.Some? ==> IsInstanceOf(feature.value, declaredType)
      modifies this
      ensures Valid()
      ensures feature.None? ==> raised == Some(NullReference) && featureIndex == old(featureIndex)
      ensures feature.Some? ==>
        raised == None && featureIndex == Register(old(featureIndex), declaredType, feature.value)
    {
      if feature.None? {
        return Some(NullReference);
      }
      featureIndex := Register(featureIndex, declaredType, feature.value);
      raised := None;
    }

    /** GetFeature<TFeature>(): the object stored under the type's name, if it is one. */
    function GetFeature(typeName: string): (r: Option<FeatureObject>)
      reads this
      requires Valid()
      ensures r.Some? <==> typeName in featureIndex
      ensures r.Some? ==> r.value == featureIndex[typeName] && IsInstanceOf(r.value, typeName)
    {
      Lookup(featureIndex, typeName)
    }

    /** LogFeatureExtensions.GetLogFeature: GetFeature<ILogFeature>(). */
    function GetLogFeature(): (r: Option<FeatureObject>)
      reads this
      requires Valid()
      ensures r.Some? <==> LogFeatureType in featureIndex
    {
      GetFeature(LogFeatureType)
    }

    /**
     * OnFeatureAdded(featureObject): subscribers, if any, are told the type of a feature
     * that is not null.  Nothing in the class calls it.
     */
    method OnFeatureAdded(featureObject: Option<FeatureObject>, hasSubscribers: bool) returns (raised: Option<FeatureAddedEventArgs>)
      ensures raised.Some? <==> featureObject.Some? && hasSubscribers
      ensures raised.Some? ==> raised.value.featureType == featureObject.value.runtimeType
    {
      if featureObject.Some? && hasSubscribers {
        return Some(FeatureAddedEventArgs(featureObject.value.runtimeType));
      }
      raised := None;
    }
  }

  /**
   * As written, a logging feature added with AddFeature is stored under its class's
   * name, so GetLogFeature, which asks for the interface's name, does not find it.
   */
  method LogFeatureIsNotFound(logger: FeatureObject) returns (found: Option<FeatureObject>)
    requires logger.runtimeType != LogFeatureType && LogFeatureType in logger.supertypes
    ensures found == None
  {
    var manager := new FeatureManager();
    var _ := manager.AddFeature(Some(logger));
    found := manager.GetLogFeature();
  }

  /** Registered under its declared interface, the same logging feature is found. */
  method LogFeatureAddedAsInterfaceIsFound(logger: FeatureObject) returns (found: Option<FeatureObject>)
    requires LogFeatureType in logger.supertypes
    ensures found == Some(logger)
  {
    var manager := new FeatureManager();
    var _ := manager.AddFeatureAs(LogFeatureType, Some(logger));
    found := manager.GetLogFeature();
  }

  /** With the corrected registration, a feature is found under its declared type unless one was there first. */
  lemma RegisteredAsIsFound(index: map<string, FeatureObject>, declaredType: string, feature: FeatureObject)
    requires WellTyped(index) && IsInstanceOf(feature, declaredType)
    ensures WellTyped(Register(index, declaredType, feature))
    ensures Lookup(Register(index, declaredType, feature), declaredType)
         == Some(if declaredType in index then index[declaredType] else feature)
  {
  }

  /** As written, a feature is found only under its runtime class's name. */
  lemma RegisteredIsFoundOnlyByClass(index: map<string, FeatureObject>, feature: FeatureObject, typeName: string)
    requires WellTyped(index) && typeName !in index
    ensures Lookup(Register(index, feature.runtimeType, feature), typeName).Some? <==> typeName == feature.runtimeType
  {
  }
}

=== FILE: PathEscaping.dfy ===
/**
 * PowerShell wildcard escaping of paths (PowerShellContext.EscapePath and
 * PowerShellContext.UnescapePath).  A backtick escapes the next character; the
 * characters that need it in a path are `[`, `]` and, on request, space.
 */
module PathEscaping {

  const Backtick: char := '`'

  /** The characters UnescapePath un-escapes: space, `[` and `]`. */
  const Escapable: set<char> := {' ', '[', ']'}

  /** The characters EscapePath escapes. */
  function Targets(escapeSpaces: bool): (t: set<char>)
    ensures t <= Escapable && Backtick !in t
    ensures '[' in t && ']' in t && (' ' in t <==> escapeSpaces)
  {
    if escapeSpaces then {'[', ']', ' '} else {'[', ']'}
  }

  /**
   * One left-to-right scan that puts a backtick in front of every character of
   * `targets` that is not already preceded by a backtick and copies every other
   * character.  `afterBacktick` says whether the character just before `s` (in the
   * whole input) is a backtick; at the start of the input it is false.
   *
   * With a one-element `targets` this is exactly `Regex.Replace(s, "(?<!`)X", "`X")`:
   * the look-behind inspects the original input, and matches are one character long.
   */
  function EscapeAll(s: string, targets: set<char>, afterBacktick: bool): string
  {
    if s == [] then []
    else
      (if s[0] in targets && !afterBacktick then [Backtick, s[0]] else [s[0]])
      + EscapeAll(s[1..], targets, s[0] == Backtick)
  }

  /** Unfolds EscapeAll one character at a time, for inputs written as `[c] + rest`. */
  lemma EscapeAllCons(c: char, rest: string, targets: set<char>, afterBacktick: bool)
    ensures EscapeAll([c] + rest, targets, afterBacktick) ==
      (if c in targets && !afterBacktick then [Backtick, c] else [c])
      + EscapeAll(rest, targets, c == Backtick)
  {
    assert ([c] + rest)[0] == c;
    assert ([c] + rest)[1..] == rest;
  }

  /**
   * Two consecutive regex passes over disjoint target sets act like one pass over
   * their union: the backticks the first pass inserts stand only before its own
   * targets, so they never hide a target of the second pass.
   */
  lemma {:induction false} TwoPassesAreOne(s: string, first: set<char>, second: set<char>, afterBacktick: bool)
    requires Backtick !in first && Backtick !in second && first !! second
    ensures EscapeAll(EscapeAll(s, first, afterBacktick), second, afterBacktick)
         == EscapeAll(s, first + second, afterBacktick)
  {
    if s != [] {
      var c, rest := s[0], s[1..];
      var inner := EscapeAll(rest, first, c == Backtick);
      TwoPassesAreOne(rest, first, second, c == Backtick);
      if c in first && !afterBacktick {
        assert EscapeAll(s, first, afterBacktick) == [Backtick] + ([c] + inner);
        EscapeAllCons(Backtick, [c] + inner, second, afterBacktick);
        EscapeAllCons(c, inner, second, true);
      } else {
        assert EscapeAll(s, first, afterBacktick) == [c] + inner;
        EscapeAllCons(c, inner, second, afterBacktick);
      }
    }
  }

  /** Escaping an already escaped string changes nothing. */
  lemma {:induction false} EscapeAllIdempotent(s: string, targets: set<char>, afterBacktick: bool)
    requires Backtick !in targets
    ensures EscapeAll(EscapeAll(s, targets, afterBacktick), targets, afterBacktick)
         == EscapeAll(s, targets, afterBacktick)
  {
    if s != [] {
      var c, rest := s[0], s[1..];
      var inner := EscapeAll(rest, targets, c == Backtick);
      EscapeAllIdempotent(rest, targets, c == Backtick);
      if c in targets && !afterBacktick {
        assert EscapeAll(s, targets, afterBacktick) == [Backtick] + ([c] + inner);
        EscapeAllCons(Backtick, [c] + inner, targets, afterBacktick);
        EscapeAllCons(c, inner, targets, true);
      } else {
        assert EscapeAll(s, targets, afterBacktick) == [c] + inner;
        EscapeAllCons(c, inner, targets, afterBacktick);
      }
    }
  }

  /**
   * PowerShellContext.EscapePath: escape `[`, then `]`, then (optionally) space, each
   * with its own regex pass.  The three passes together are one EscapeAll scan.
   */
  function EscapePath(path: string, escapeSpaces: bool): (r: string)
    ensures r == EscapeAll(path, Targets(escapeSpaces), false)
  {
    var openEscaped := EscapeAll(path, {'['}, false);
    var bracketsEscaped := EscapeAll(openEscaped, {']'}, false);
    TwoPassesAreOne(path, {'['}, {']'}, false);
    assert {'['} + {']'} == {'[', ']'};
    if escapeSpaces then
      TwoPassesAreOne(path, {'[', ']'}, {' '}, false);
      assert {'[', ']'} + {' '} == Targets(true);
      EscapeAll(bracketsEscaped, {' '}, false)
    else
      bracketsEscaped
  }

  /** EscapePath is idempotent: escaping a path twice gives the same result as once. */
  lemma EscapePathIdempotent(path: string, escapeSpaces: bool)
    ensures EscapePath(EscapePath(path, escapeSpaces), escapeSpaces) == EscapePath(path, escapeSpaces)
  {
    EscapeAllIdempotent(path, Targets(escapeSpaces), false);
  }

  /**
   * Every character of `targets` in `r` has a backtick right before it (for the first
   * character: `afterBacktick`, the character before `r` is one).
   */
  ghost predicate EveryTargetEscaped(r: string, targets: set<char>, afterBacktick: bool)
  {
    forall i :: 0 <= i < |r| && r[i] in targets ==> (i == 0 && afterBacktick) || (0 < i && r[i - 1] == Backtick)
  }

  /** Every target character of an escaped string has a backtick right before it. */
  lemma {:induction false} EscapeAllEscapesEveryTarget(s: string, targets: set<char>, afterBacktick: bool)
    requires Backtick !in targets
    ensures EveryTargetEscaped(EscapeAll(s, targets, afterBacktick), targets, afterBacktick)
  {
    if s != [] {
      var c, rest := s[0], s[1..];
      var inner := EscapeAll(rest, targets, c == Backtick);
      EscapeAllEscapesEveryTarget(rest, targets, c == Backtick);
      var head := if c in targets && !afterBacktick then [Backtick, c] else [c];
      var r := head + inner;
      assert EscapeAll(s, targets, afterBacktick) == r;
      forall i | 0 <= i < |r| && r[i] in targets
        ensures (i == 0 && afterBacktick) || (0 < i && r[i - 1] == Backtick)
      {
        if i < |head| {
          if c in targets && !afterBacktick {
            assert r == [Backtick, c] + inner;
            assert i == 1 && r[0] == Backtick;
          } else {
            assert r == [c] + inner;
            assert i == 0 && r[0] == c;
          }
        } else {
          var j := i - |head|;
          assert r[i] == inner[j];
          assert inner[j] in targets;
          if j == 0 {
            assert r[i - 1] == c;
          } else {
            assert r[i - 1] == inner[i - |head| - 1];
          }
        }
      }
    }
  }

  /** The string with all backticks deleted. */
  function WithoutBackticks(s: string): string
  {
    if s == [] then [] else (if s[0] == Backtick then [] else [s[0]]) + WithoutBackticks(s[1..])
  }

  /** Escaping only inserts backticks: every other character is kept, in order. */
  lemma {:induction false} EscapeAllOnlyInsertsBackticks(s: string, targets: set<char>, afterBacktick: bool)
    requires Backtick !in targets
    ensures WithoutBackticks(EscapeAll(s, targets, afterBacktick)) == WithoutBackticks(s)
    ensures |EscapeAll(s, targets, afterBacktick)| >= |s|
  {
    if s != [] {
      var c, rest := s[0], s[1..];
      var inner := EscapeAll(rest, targets, c == Backtick);
      EscapeAllOnlyInsertsBackticks(rest, targets, c == Backtick);
      if c in targets && !afterBacktick {
        assert EscapeAll(s, targets, afterBacktick) == [Backtick] + ([c] + inner);
        assert ([Backtick] + ([c] + inner))[1..] == [c] + inner;
        assert ([c] + inner)[1..] == inner;
      } else {
        assert EscapeAll(s, targets, afterBacktick) == [c] + inner;
        assert ([c] + inner)[1..] == inner;
      }
    }
  }

  /**
   * What EscapePath promises: every `[` and `]` (and every space when `escapeSpaces`)
   * of the result is preceded by a backtick, and apart from inserted backticks the
   * result is the input.
   */
  lemma EscapePathEscapesTargets(path: string, escapeSpaces: bool)
    ensures EveryTargetEscaped(EscapePath(path, escapeSpaces), Targets(escapeSpaces), false)
    ensures WithoutBackticks(EscapePath(path, escapeSpaces)) == WithoutBackticks(path)
  {
    EscapeAllEscapesEveryTarget(path, Targets(escapeSpaces), false);
    EscapeAllOnlyInsertsBackticks(path, Targets(escapeSpaces), false);
  }

  /** Deletes every backtick that is directly followed by a space, `[` or `]`. */
  function RemoveEscapes(s: string): (r: string)
    ensures |r| <= |s|
    ensures WithoutBackticks(r) == WithoutBackticks(s)
  {
    if s == [] then []
    else if s[0] == Backtick && |s| > 1 && s[1] in Escapable then RemoveEscapes(s[1..])
    else
      var rest := RemoveEscapes(s[1..]);
      assert ([s[0]] + rest)[0] == s[0] && ([s[0]] + rest)[1..] == rest;
      [s[0]] + rest
  }

  /** A string without backticks has nothing to un-escape. */
  lemma {:induction false} RemoveEscapesWithoutBacktick(s: string)
    requires Backtick !in s
    ensures RemoveEscapes(s) == s
  {
    if s != [] {
      assert Backtick !in s[1..] by { assert forall k :: 0 <= k < |s[1..]| ==> s[1..][k] == s[k + 1]; }
      RemoveEscapesWithoutBacktick(s[1..]);
    }
  }

  /**
   * PowerShellContext.UnescapePath: a path without a backtick is returned as it is;
   * otherwise `Regex.Replace(path, "`(?=[ \[\]])", "")` deletes each backtick whose next
   * character (in the input) is a space, `[` or `]`.  The shortcut agrees with the
   * replacement, so the result is always RemoveEscapes(path).
   */
  function UnescapePath(path: string): (r: string)
    ensures r == RemoveEscapes(path)
    ensures Backtick !in path ==> r == path
  {
    if Backtick !in path then
      RemoveEscapesWithoutBacktick(path);
      path
    else
      RemoveEscapes(path)
  }

  /** Unfolds RemoveEscapes one character at a time, for inputs written as `[c] + rest`. */
  lemma RemoveEscapesCons(c: char, rest: string)
    ensures RemoveEscapes([c] + rest) ==
      if c == Backtick && rest != [] && rest[0] in Escapable then RemoveEscapes(rest) else [c] + RemoveEscapes(rest)
  {
    assert ([c] + rest)[0] == c;
    assert ([c] + rest)[1..] == rest;
  }

  /** Removing the escapes of a backtick-free string escaped with EscapeAll gives it back. */
  lemma {:induction false} RemoveEscapesUndoesEscapeAll(s: string, targets: set<char>)
    requires Backtick !in s
    requires targets <= Escapable
    ensures RemoveEscapes(EscapeAll(s, targets, false)) == s
  {
    if s != [] {
      var c, rest := s[0], s[1..];
      assert s == [c] + rest;
      assert Backtick !in rest by { assert forall k :: 0 <= k < |rest| ==> rest[k] == s[k + 1]; }
      var inner := EscapeAll(rest, targets, false);
      RemoveEscapesUndoesEscapeAll(rest, targets);
      EscapeAllCons(c, rest, targets, false);
      RemoveEscapesCons(c, inner);
      if c in targets {
        assert EscapeAll(s, targets, false) == [Backtick] + ([c] + inner);
        RemoveEscapesCons(Backtick, [c] + inner);
      } else {
        assert EscapeAll(s, targets, false) == [c] + inner;
      }
    }
  }

  /** Round trip: UnescapePath undoes EscapePath on every path that has no backtick. */
  lemma UnescapeEscapeRoundTrip(path: string, escapeSpaces: bool)
    requires Backtick !in path
    ensures UnescapePath(EscapePath(path, escapeSpaces)) == path
  {
    RemoveEscapesUndoesEscapeAll(path, Targets(escapeSpaces));
  }
}

=== FILE: PowerShellSession.dfy ===
/**
 * The PowerShellContext object: its session state, its execution request queue and
 * the operations that move them (PowerShellContext.cs).
 *
 * The runspace is not modelled.  What the runspace would answer is passed in: the
 * $PSVersionTable lookup, whether it has a debugger, what Get-ExecutionPolicy returns,
 * its availability, what the debugger returns for a nested command, and the outcome of
 * each execution attempt of a queue drain.  The TaskCompletionSource of a queued
 * request is a number handed out by the context; `completedRequests` records, in order,
 * the completions that have been set.
 */
module PowerShellSession {
  import opened Wrappers
  import opened Errors
  import opened Commands
  import opened ExecutionQueue
  import RC = RunspaceConfiguration

  /** PowerShellContextState; a context whose state was never set is in the first one. */
  datatype SessionState = Unknown | NotStarted | Ready | Running | Aborting | Disposed

  /** System.Management.Automation.Runspaces.RunspaceAvailability (`None` and `Busy` renamed). */
  datatype RunspaceAvailability = AvailabilityNone | Available | AvailableForNestedCommand | RunspaceBusy | RemoteDebug

  datatype DebuggerResumeAction = Continue | StepInto | StepOut | StepOver | Stop

  /** What the version-specific ExecuteCommandInDebugger does with a nested command. */
  datatype DebuggerAnswer =
    | DebuggerResults(results: seq<string>)
    | DebuggerRuntimeException(message: string)  // a RuntimeException: ExecuteCommand catches it

  /** How a call of ExecuteCommand ends. */
  datatype CommandOutcome =
    | Threw(exception: DotNetException)  // an exception escapes to the caller
    | Returned(results: seq<string>)     // results available without queueing
    | Queued(completion: nat)            // the results arrive when this completion is set

  /** How Initialize ends. */
  datatype InitializeOutcome =
    | InitializeFailed(exception: DotNetException)
    | Initialized(executionPolicyToSet: Option<RC.ExecutionPolicy>)

  /** A CancellationTokenSource and whether Cancel was called on it. */
  datatype CancellationSource = CancellationSource(cancelled: bool)

  const NotInitializedMessage: string := "The PowerShellContext has not yet been initialized"

  /** Whether `s` is strictly increasing. */
  ghost predicate Increasing(s: seq<nat>)
  {
    forall i, j :: 0 <= i < j < |s| ==> s[i] < s[j]
  }

  /** Removing a block from a strictly increasing sequence leaves it strictly increasing. */
  lemma IncreasingWithoutBlock(a: seq<nat>, b: seq<nat>, c: seq<nat>)
    requires Increasing(a + b + c)
    ensures Increasing(a + c)
  {
    var whole, part := a + b + c, a + c;
    forall i, j | 0 <= i < j < |part|
      ensures part[i] < part[j]
    {
      var i' := if i < |a| then i else i + |b|;
      var j' := if j < |a| then j else j + |b|;
      assert part[i] == whole[i'] && part[j] == whole[j'];
    }
  }

  /** `handed` is strictly increasing and below `next`, the next completion to hand out. */
  ghost predicate HandedOut(handed: seq<nat>, next: nat)
  {
    && Increasing(handed)
    && forall k :: 0 <= k < |handed| ==> handed[k] < next
  }

  /** Removing a block of completions keeps the rest handed out in order. */
  lemma HandedOutWithoutBlock(a: seq<nat>, b: seq<nat>, c: seq<nat>, next: nat)
    requires HandedOut(a + b + c, next)
    ensures HandedOut(a + c, next)
  {
    IncreasingWithoutBlock(a, b, c);
    forall k | 0 <= k < |a + c|
      ensures (a + c)[k] < next
    {
      if k < |a| {
        assert (a + c)[k] == (a + b + c)[k];
      } else {
        assert (a + c)[k] == (a + b + c)[k + |b|];
      }
    }
  }

  /** The completions of a queue split into a discarded front, completed requests and a rest. */
  lemma CompletionsOfSplit(queue: seq<QueuedRequest>, r: DrainResult)
    requires queue == r.discarded + (r.completed + r.rest)
    ensures Completions(queue) == Completions(r.discarded) + (Completions(r.completed) + Completions(r.rest))
  {
    CompletionsAppend(r.discarded, r.completed + r.rest);
    CompletionsAppend(r.completed, r.rest);
  }

  /** The same on the completions alone: `d` is dropped from between `completed` and `c + rest`. */
  lemma DropBlockKeepsHandedOut(completed: seq<nat>, d: seq<nat>, c: seq<nat>, rest: seq<nat>, next: nat)
    requires HandedOut(completed + (d + (c + rest)), next)
    ensures HandedOut(completed + c + rest, next)
  {
    assert completed + (d + (c + rest)) == completed + d + (c + rest);
    HandedOutWithoutBlock(completed, d, c + rest, next);
    assert completed + (c + rest) == completed + c + rest;
  }

  /** Dropping the requests in front of the completed ones keeps the completions handed out in order. */
  lemma DropFrontKeepsHandedOut(completed: seq<nat>, queue: seq<QueuedRequest>, r: DrainResult, next: nat)
    requires queue == r.discarded + (r.completed + r.rest)
    requires HandedOut(completed + Completions(queue), next)
    ensures HandedOut(completed + Completions(r.completed) + Completions(r.rest), next)
  {
    CompletionsOfSplit(queue, r);
    DropBlockKeepsHandedOut(completed, Completions(r.discarded), Completions(r.completed), Completions(r.rest), next);
  }

  /** A flush keeps the completions handed out increasing: it only removes some of them. */
  lemma FlushKeepsHandedOut(completed: seq<nat>, queue: seq<QueuedRequest>, outcomes: seq<ExecutionOutcome>, next: nat)
    requires HandedOut(completed + Completions(queue), next)
    ensures HandedOut(completed + Completions(FlushSpec(queue, outcomes).completed) + Completions(FlushSpec(queue, outcomes).rest), next)
  {
    FlushSplitsQueue(queue, outcomes);
    DropFrontKeepsHandedOut(completed, queue, FlushSpec(queue, outcomes), next);
  }

  /** So does a run of the processing loop. */
  lemma ProcessKeepsHandedOut(completed: seq<nat>, queue: seq<QueuedRequest>, outcomes: seq<ExecutionOutcome>, next: nat)
    requires HandedOut(completed + Completions(queue), next)
    ensures HandedOut(completed + Completions(ProcessSpec(queue, outcomes).completed) + Completions(ProcessSpec(queue, outcomes).rest), next)
  {
    var r := ProcessSpec(queue, outcomes);
    ProcessSplitsQueue(queue, outcomes);
    var c, d, t := Completions(r.completed), Completions(r.discarded), Completions(r.rest);
    assert queue == r.completed + r.discarded + r.rest;
    CompletionsAppend(r.completed, r.discarded);
    CompletionsAppend(r.completed + r.discarded, r.rest);
    assert Completions(queue) == c + d + t;
    var a := completed + c;
    assert completed + Completions(queue) == a + d + t;
    HandedOutWithoutBlock(a, d, t, next);
    assert completed + c + t == a + t;
  }

  /** The pipeline ExecuteCommand runs or queues, or the exception building it throws. */
  function Pipeline(commands: seq<Command>, sendOutputToHost: bool, debuggerStopped: bool): (r: Result<seq<Command>, DotNetException>)
    ensures !sendOutputToHost ==> r == Ok(commands)
    ensures sendOutputToHost ==> r == SendOutputToHost(commands, debuggerStopped)
  {
    if sendOutputToHost then SendOutputToHost(commands, debuggerStopped) else Ok(commands)
  }

  class PowerShellContext {
    var sessionState: SessionState
    var isDebuggerStopped: bool
    var isRunspaceDebuggable: bool
    var powerShellVersion: Option<RC.Version>
    var powerShellEdition: Option<string>
    var versionSpecificOperations: Option<RC.VersionOperations>
    /** Only code that is commented out in the class would create the token source. */
    var executionQueueCancellation: Option<CancellationSource>
    /** The AsyncQueue of requests and their completions. */
    var executionRequestQueue: seq<QueuedRequest>
    /** The completions set so far, in the order they were set. */
    var completedRequests: seq<nat>
    /** The completion the next queued request receives. */
    var nextCompletion: nat

    /** Every request and completion ever handed out, in the order handed out. */
    ghost function Handed(): seq<nat>
      reads this
    {
      completedRequests + Completions(executionRequestQueue)
    }

    /**
     * Completions are handed out in increasing order; each is set at most once, and
     * they are set in the order they were handed out (first in, first completed).
     */
    ghost predicate Valid()
      reads this
    {
      HandedOut(Handed(), nextCompletion)
    }

    /** PowerShellContext(Runspace): the runspace is kept; nothing else is set. */
    constructor ()
      ensures Valid()
      ensures sessionState == Unknown && !isDebuggerStopped && !isRunspaceDebuggable
      ensures powerShellVersion == None && powerShellEdition == None && versionSpecificOperations == None
      ensures executionQueueCancellation == None
      ensures executionRequestQueue == [] && completedRequests == [] && nextCompletion == 0
    {
      sessionState := Unknown;
      isDebuggerStopped := false;
      isRunspaceDebuggable := false;
      powerShellVersion := None;
      powerShellEdition := None;
      versionSpecificOperations := None;
      executionQueueCancellation := None;
      executionRequestQueue := [];
      completedRequests := [];
      nextCompletion := 0;
    }

    /**
     * Initialize and ConfigureRunspace.  The state is NotStarted while the runspace is
     * configured; the debugger is configured when the runspace has one; the version
     * and edition come from $PSVersionTable (or the defaults) and choose the
     * version-specific operations.  An unsupported version throws with the state left
     * NotStarted; otherwise the execution policy is lowered to RemoteSigned where
     * needed and the state becomes Ready.
     */
    method Initialize(lookup: Option<RC.PSVersionTable>, hasDebugger: bool, getPolicyResults: seq<RC.ExecutionPolicy>)
      returns (outcome: InitializeOutcome)
      modifies this`sessionState, this`isRunspaceDebuggable, this`powerShellVersion,
               this`powerShellEdition, this`versionSpecificOperations
      ensures sessionState == NotStarted || sessionState == Ready
      ensures isRunspaceDebuggable == (hasDebugger || old(isRunspaceDebuggable))
      ensures powerShellVersion == Some(RC.GetPowerShellVersion(lookup).0)
      ensures powerShellEdition == Some(RC.GetPowerShellVersion(lookup).1)
      ensures RC.SelectOperations(RC.GetPowerShellVersion(lookup).0).Err? ==>
        && outcome == InitializeFailed(RC.SelectOperations(RC.GetPowerShellVersion(lookup).0).error)
        && sessionState == NotStarted
        && versionSpecificOperations == old(versionSpecificOperations)
      ensures RC.SelectOperations(RC.GetPowerShellVersion(lookup).0).Ok? ==>
        && outcome == Initialized(RC.ExecutionPolicyToSet(RC.GetPowerShellVersion(lookup).1, getPolicyResults))
        && sessionState == Ready
        && versionSpecificOperations == Some(RC.SelectOperations(RC.GetPowerShellVersion(lookup).0).value)
    {
      sessionState := NotStarted;
      if hasDebugger {
        isRunspaceDebuggable := true;
      }
      var (version, edition) := RC.GetPowerShellVersion(lookup);
      powerShellVersion := Some(version);
      powerShellEdition := Some(edition);
      var operations := RC.SelectOperations(version);
      if operations.Err? {
        return InitializeFailed(operations.error);
      }
      versionSpecificOperations := Some(operations.value);
      outcome := Initialized(RC.ExecutionPolicyToSet(edition, getPolicyResults));
      sessionState := Ready;
    }

    /**
     * QueueExecutionRequest: a new completion is created and the request is put at the
     * back of the queue with it; the caller then waits for that completion.
     */
    method QueueExecutionRequest(request: ExecutionRequest) returns (completion: nat)
      requires Valid()
      modifies this`executionRequestQueue, this`nextCompletion
      ensures Valid()
      ensures completion == old(nextCompletion) && nextCompletion == completion + 1
      ensures executionRequestQueue == old(executionRequestQueue) + [QueuedRequest(request, completion)]
    {
      completion := nextCompletion;
      CompletionsAppend(executionRequestQueue, [QueuedRequest(request, completion)]);
      executionRequestQueue := executionRequestQueue + [QueuedRequest(request, completion)];
      nextCompletion := nextCompletion + 1;
      assert Handed() == old(Handed()) + [completion];
    }

    /** ExecuteWithRunspace (both overloads): queue a runspace function or action. */
    method ExecuteWithRunspace(returnsResult: bool) returns (completion: nat)
      requires Valid()
      modifies this`executionRequestQueue, this`nextCompletion
      ensures Valid()
      ensures completion == old(nextCompletion) && nextCompletion == completion + 1
      ensures executionRequestQueue == old(executionRequestQueue)
        + [QueuedRequest(if returnsResult then RunspaceFuncRequest else RunspaceActionRequest, completion)]
    {
      var request := if returnsResult then RunspaceFuncRequest else RunspaceActionRequest;
      completion := QueueExecutionRequest(request);
    }

    /**
     * FlushExecutionRequestQueue, run on each PowerShell.OnIdle event: the effect on
     * the queue and on the completions is the one FlushSpec describes.
     */
    method FlushExecutionRequestQueue(outcomes: seq<ExecutionOutcome>) returns (faulted: bool)
      requires Valid()
      modifies this`executionRequestQueue, this`completedRequests
      ensures Valid()
      ensures executionRequestQueue == FlushSpec(old(executionRequestQueue), outcomes).rest
      ensures completedRequests == old(completedRequests) + Completions(FlushSpec(old(executionRequestQueue), outcomes).completed)
      ensures faulted == FlushSpec(old(executionRequestQueue), outcomes).faulted
    {
      ghost var spec := FlushSpec(executionRequestQueue, outcomes);
      var i := 0;
      var stopped := false;
      faulted := false;
      while !stopped && i < |outcomes| && executionRequestQueue != []
        invariant 0 <= i <= |outcomes|
        invariant !stopped ==> && completedRequests == old(completedRequests) && !faulted
                               && Resumes(spec, [], FlushSpec(executionRequestQueue, outcomes[i..]))
        invariant stopped ==> && executionRequestQueue == spec.rest && faulted == spec.faulted
                              && completedRequests == old(completedRequests) + Completions(spec.completed)
        decreases |outcomes| - i
      {
        var head := executionRequestQueue[0];
        ghost var before := executionRequestQueue;
        executionRequestQueue := executionRequestQueue[1..];
        var outcome := outcomes[i];
        assert outcomes[i..][0] == outcome && outcomes[i..][1..] == outcomes[i + 1..];
        i := i + 1;
        match outcome {
          case Success =>
            completedRequests := completedRequests + [head.completion];
            assert Completions([head]) == [head.completion];
            stopped := true;
          case Fault =>
            faulted := true;
            stopped := true;
          case _ =>
            // a busy runspace (after a delay) or another invalid operation: next request
        }
      }
      assert executionRequestQueue == spec.rest;
      assert completedRequests == old(completedRequests) + Completions(spec.completed);
      FlushKeepsHandedOut(old(completedRequests), old(executionRequestQueue), outcomes, nextCompletion);
    }

    /** HandleOnIdleEvent: flush the queue without a cancellation token. */
    method HandleOnIdleEvent(outcomes: seq<ExecutionOutcome>) returns (faulted: bool)
      requires Valid()
      modifies this`executionRequestQueue, this`completedRequests
      ensures Valid()
      ensures executionRequestQueue == FlushSpec(old(executionRequestQueue), outcomes).rest
      ensures completedRequests == old(completedRequests) + Completions(FlushSpec(old(executionRequestQueue), outcomes).completed)
      ensures faulted == FlushSpec(old(executionRequestQueue), outcomes).faulted
    {
      faulted := FlushExecutionRequestQueue(outcomes);
    }

    /**
     * ProcessExecutionRequestQueue: the dequeue-and-retry loop; the effect on the queue
     * and on the completions is the one ProcessSpec describes.
     */
    method ProcessExecutionRequestQueue(outcomes: seq<ExecutionOutcome>) returns (faulted: bool)
      requires Valid()
      modifies this`executionRequestQueue, this`completedRequests
      ensures Valid()
      ensures executionRequestQueue == ProcessSpec(old(executionRequestQueue), outcomes).rest
      ensures completedRequests == old(completedRequests) + Completions(ProcessSpec(old(executionRequestQueue), outcomes).completed)
      ensures faulted == ProcessSpec(old(executionRequestQueue), outcomes).faulted
    {
      ghost var spec := ProcessSpec(executionRequestQueue, outcomes);
      ghost var done: seq<QueuedRequest> := [];
      var i := 0;
      faulted := false;
      while !faulted && i < |outcomes| && executionRequestQueue != []
        invariant 0 <= i <= |outcomes|
        invariant completedRequests == old(completedRequests) + Completions(done)
        invariant !faulted ==> Resumes(spec, done, ProcessSpec(executionRequestQueue, outcomes[i..]))
        invariant faulted ==> spec.completed == done && spec.rest == executionRequestQueue && spec.faulted
        decreases |outcomes| - i
      {
        var head := executionRequestQueue[0];
        var succeeded;
        succeeded, faulted, i := RetryHead(executionRequestQueue, outcomes, i, spec, done);
        if succeeded {
          executionRequestQueue := executionRequestQueue[1..];
          completedRequests := completedRequests + [head.completion];
          assert Completions([head]) == [head.completion];
          CompletionsAppend(done, [head]);
          done := done + [head];
        } else if faulted {
          executionRequestQueue := executionRequestQueue[1..];
        }
      }
      assert executionRequestQueue == spec.rest;
      assert completedRequests == old(completedRequests) + Completions(spec.completed);
      ProcessKeepsHandedOut(old(completedRequests), old(executionRequestQueue), outcomes, nextCompletion);
    }

    /**
     * ExecuteCommand<TResult>(psCommand, errorMessages, sendOutputToHost, sendErrorToHost).
     * An uninitialized context throws.  Sending output to the host merges errors into
     * the first command's output and appends the output command (which throws on an
     * empty pipeline).  A runspace available for a nested command runs the pipeline in
     * the stopped debugger, or does nothing when the debugger is not stopped; any other
     * runspace availability queues the pipeline.  A RuntimeException of the debugger is
     * caught: the result is empty and its message is appended to `errorMessages`.
     */
    method ExecuteCommand(commands: seq<Command>, errorMessages: Option<string>, sendOutputToHost: bool,
                          availability: RunspaceAvailability, debugger: DebuggerAnswer)
      returns (outcome: CommandOutcome, errorMessagesAfter: Option<string>)
      requires Valid()
      modifies this`executionRequestQueue, this`nextCompletion
      ensures Valid()
      ensures errorMessagesAfter.None? <==> errorMessages.None?
      ensures errorMessagesAfter != errorMessages ==>
        availability == AvailableForNestedCommand && isDebuggerStopped && debugger.DebuggerRuntimeException?
      ensures outcome.Queued? <==>
        sessionState != Unknown && Pipeline(commands, sendOutputToHost, isDebuggerStopped).Ok? && availability != AvailableForNestedCommand
      ensures outcome.Queued? ==>
        && outcome.completion == old(nextCompletion) && nextCompletion == old(nextCompletion) + 1
        && executionRequestQueue == old(executionRequestQueue)
             + [QueuedRequest(CommandRequest(Pipeline(commands, sendOutputToHost, isDebuggerStopped).value), outcome.completion)]
      ensures !outcome.Queued? ==>
        executionRequestQueue == old(executionRequestQueue) && nextCompletion == old(nextCompletion)
      ensures sessionState == Unknown ==> outcome == Threw(DotNetException.InvalidOperation(NotInitializedMessage))
      ensures sessionState != Unknown && Pipeline(commands, sendOutputToHost, isDebuggerStopped).Err? ==>
        outcome == Threw(Pipeline(commands, sendOutputToHost, isDebuggerStopped).error)
      ensures sessionState != Unknown && Pipeline(commands, sendOutputToHost, isDebuggerStopped).Ok? && availability == AvailableForNestedCommand ==>
        if !isDebuggerStopped then outcome == Returned([])
        else if versionSpecificOperations.None? then outcome == Threw(NullReference)
        else match debugger
          case DebuggerResults(results) => outcome == Returned(results)
          case DebuggerRuntimeException(message) =>
            outcome == Returned([]) && errorMessagesAfter == (if errorMessages.Some? then Some(errorMessages.value + message) else None)
    {
      errorMessagesAfter := errorMessages;
      if sessionState == Unknown {
        return Threw(DotNetException.InvalidOperation(NotInitializedMessage)), errorMessagesAfter;
      }
      var pipeline := Pipeline(commands, sendOutputToHost, isDebuggerStopped);
      if pipeline.Err? {
        return Threw(pipeline.error), errorMessagesAfter;
      }
      if availability == AvailableForNestedCommand {
        if isDebuggerStopped {
          if versionSpecificOperations.None? {
            return Threw(NullReference), errorMessagesAfter;
          }
          match debugger {
            case DebuggerResults(results) =>
              outcome := Returned(results);
            case DebuggerRuntimeException(message) =>
              outcome := Returned([]);
              if errorMessages.Some? {
                errorMessagesAfter := Some(errorMessages.value + message);
              }
          }
        } else {
          // nothing is executed
          outcome := Returned([]);
        }
      } else {
        var completion := QueueExecutionRequest(CommandRequest(pipeline.value));
        outcome := Queued(completion);
      }
    }

    /**
     * ExecuteScriptString(script, writeInputToHost, writeOutputToHost): the script as a
     * one-command pipeline, with errors going to the host.
     */
    method ExecuteScriptString(script: string, writeOutputToHost: bool, availability: RunspaceAvailability, debugger: DebuggerAnswer)
      returns (outcome: CommandOutcome)
      requires Valid()
      modifies this`executionRequestQueue, this`nextCompletion
      ensures Valid()
      ensures sessionState == Unknown ==> outcome == Threw(DotNetException.InvalidOperation(NotInitializedMessage))
      ensures outcome.Threw? <==> (sessionState == Unknown ||
        (availability == AvailableForNestedCommand && isDebuggerStopped && versionSpecificOperations.None?))
      ensures outcome.Queued? <==> sessionState != Unknown && availability != AvailableForNestedCommand
      ensures outcome.Queued? ==>
        && outcome.completion == old(nextCompletion) && nextCompletion == old(nextCompletion) + 1
        && executionRequestQueue == old(executionRequestQueue)
             + [QueuedRequest(CommandRequest(
                  if writeOutputToHost then ScriptToHost(script, isDebuggerStopped) else [ScriptCommand(script)]),
                  outcome.completion)]
      ensures !outcome.Queued? ==> executionRequestQueue == old(executionRequestQueue) && nextCompletion == old(nextCompletion)
    {
      var errorMessages;
      outcome, errorMessages := ExecuteCommand([ScriptCommand(script)], None, writeOutputToHost, availability, debugger);
    }

    /**
     * ExecuteScriptAtPath(scriptPath, arguments): the commands ScriptAtPathCommands
     * builds, with output sent to the host.
     */
    method ExecuteScriptAtPath(scriptPath: string, arguments: Option<string>, availability: RunspaceAvailability, debugger: DebuggerAnswer)
      returns (outcome: CommandOutcome)
      requires Valid()
      modifies this`executionRequestQueue, this`nextCompletion
      ensures Valid()
      ensures sessionState == Unknown ==> outcome == Threw(DotNetException.InvalidOperation(NotInitializedMessage))
      ensures outcome.Queued? <==> sessionState != Unknown && availability != AvailableForNestedCommand
      ensures outcome.Queued? ==>
        && outcome.completion == old(nextCompletion) && nextCompletion == old(nextCompletion) + 1
        && executionRequestQueue == old(executionRequestQueue)
             + [QueuedRequest(CommandRequest(SendOutputToHost(ScriptAtPathCommands(scriptPath, arguments), isDebuggerStopped).value), outcome.completion)]
      ensures !outcome.Queued? ==> executionRequestQueue == old(executionRequestQueue) && nextCompletion == old(nextCompletion)
    {
      var errorMessages;
      outcome, errorMessages := ExecuteCommand(ScriptAtPathCommands(scriptPath, arguments), None, true, availability, debugger);
    }

    /**
     * AbortExecution: unless already aborting or disposed, the state becomes Aborting
     * and, when the debugger is stopped, ResumeDebugger(Stop) is called.  The result is
     * the resume action requested, if any.
     */
    method AbortExecution() returns (resumed: Option<DebuggerResumeAction>)
      modifies this`sessionState
      ensures old(sessionState) in {Aborting, Disposed} ==> sessionState == old(sessionState) && resumed == None
      ensures old(sessionState) !in {Aborting, Disposed} ==>
        sessionState == Aborting && resumed == (if isDebuggerStopped then Some(Stop) else None)
    {
      resumed := None;
      if sessionState != Aborting && sessionState != Disposed {
        sessionState := Aborting;
        if isDebuggerStopped {
          ResumeDebugger(Stop);
          resumed := Some(Stop);
        }
      }
    }

    /** ResumeDebugger: its body is commented out, so it changes nothing. */
    method ResumeDebugger(action: DebuggerResumeAction)
      ensures unchanged(this)
    {
    }

    /**
     * BreakExecution: asks the version-specific operations to pause the debugger, which
     * throws a NullReferenceException before the context has been configured.
     */
    method BreakExecution() returns (paused: Result<RC.VersionOperations, DotNetException>)
      ensures paused.Err? <==> versionSpecificOperations.None?
      ensures paused.Err? ==> paused.error == NullReference
      ensures paused.Ok? ==> versionSpecificOperations == Some(paused.value)
    {
      if versionSpecificOperations.None? {
        return Err(NullReference);
      }
      paused := Ok(versionSpecificOperations.value);
    }

    /**
     * Dispose, as written: a running or debugger-stopped context is aborted first; the
     * state becomes Disposed; then the queue's cancellation token source is cancelled,
     * which throws a NullReferenceException when it was never created.
     */
    method Dispose() returns (aborted: bool, raised: Option<DotNetException>)
      modifies this`sessionState, this`executionQueueCancellation
      ensures aborted <==> old(sessionState) == Running || isDebuggerStopped
      ensures sessionState == Disposed
      ensures old(executionQueueCancellation).None? ==> raised == Some(NullReference) && executionQueueCancellation == None
      ensures old(executionQueueCancellation).Some? ==> raised == None && executionQueueCancellation == Some(CancellationSource(true))
    {
      aborted := false;
      if sessionState == Running || isDebuggerStopped {
        var _ := AbortExecution();
        aborted := true;
      }
      sessionState := Disposed;
      if executionQueueCancellation.None? {
        return aborted, Some(NullReference);
      }
      executionQueueCancellation := Some(CancellationSource(true));
      raised := None;
    }

    /**
     * Dispose as evidently intended: the same, but a token source that was never
     * created is skipped, so disposing never throws.
     */
    method DisposeGuarded() returns (aborted: bool)
      modifies this`sessionState, this`executionQueueCancellation
      ensures aborted <==> old(sessionState) == Running || isDebuggerStopped
      ensures sessionState == Disposed
      ensures executionQueueCancellation == if old(executionQueueCancellation).None? then None else Some(CancellationSource(true))
    {
      aborted := false;
      if sessionState == Running || isDebuggerStopped {
        var _ := AbortExecution();
        aborted := true;
      }
      sessionState := Disposed;
      if executionQueueCancellation.Some? {
        executionQueueCancellation := Some(CancellationSource(true));
      }
    }

    /** OnDebuggerStop: the debugger is marked stopped (nothing marks it resumed). */
    method OnDebuggerStop()
      modifies this`isDebuggerStopped
      ensures isDebuggerStopped
    {
      isDebuggerStopped := true;
    }
  }

  /** How far a drain run has got: `done` completed so far, `tail` still to come. */
  ghost predicate Resumes(spec: DrainResult, done: seq<QueuedRequest>, tail: DrainResult)
  {
    && spec.completed == done + tail.completed
    && spec.rest == tail.rest
    && spec.faulted == tail.faulted
  }

  /**
   * The inner loop of ProcessExecutionRequestQueue: the request at the head of `queue` is
   * executed again while the runspace rejects it with a PSInvalidOperationException,
   * until it succeeds, an exception escapes, or the runspace's answers run out.
   */
  method RetryHead(queue: seq<QueuedRequest>, outcomes: seq<ExecutionOutcome>, start: nat,
                   ghost spec: DrainResult, ghost done: seq<QueuedRequest>)
    returns (succeeded: bool, faulted: bool, i: nat)
    requires queue != [] && start <= |outcomes|
    requires Resumes(spec, done, ProcessSpec(queue, outcomes[start..]))
    ensures start <= i <= |outcomes|
    ensures !(succeeded && faulted)
    ensures succeeded || faulted ==> i > start
    ensures forall k :: start <= k < i - 1 ==> outcomes[k] == Busy || outcomes[k] == ExecutionOutcome.InvalidOperation
    ensures succeeded ==> outcomes[i - 1] == Success
    ensures faulted ==> outcomes[i - 1] == Fault
    ensures !succeeded && !faulted ==> i == |outcomes| && Resumes(spec, done, ProcessSpec(queue, outcomes[i..]))
    ensures succeeded ==> Resumes(spec, done + [queue[0]], ProcessSpec(queue[1..], outcomes[i..]))
    ensures faulted ==> spec.completed == done && spec.rest == queue[1..] && spec.faulted
  {
    succeeded, faulted, i := false, false, start;
    while !succeeded && !faulted && i < |outcomes|
      invariant start <= i <= |outcomes|
      invariant succeeded || faulted ==> i > start
      invariant !(succeeded && faulted)
      invariant forall k :: start <= k < (if succeeded || faulted then i - 1 else i) ==> outcomes[k] == Busy || outcomes[k] == ExecutionOutcome.InvalidOperation
      invariant succeeded ==> outcomes[i - 1] == Success
      invariant faulted ==> outcomes[i - 1] == Fault
      invariant !succeeded && !faulted ==> Resumes(spec, done, ProcessSpec(queue, outcomes[i..]))
      invariant succeeded ==> Resumes(spec, done + [queue[0]], ProcessSpec(queue[1..], outcomes[i..]))
      invariant faulted ==> spec.completed == done && spec.rest == queue[1..] && spec.faulted
      decreases |outcomes| - i
    {
      var outcome := outcomes[i];
      assert outcomes[i..][0] == outcome && outcomes[i..][1..] == outcomes[i + 1..];
      i := i + 1;
      match outcome {
        case Success => succeeded := true;
        case Fault => faulted := true;
        case _ => // a busy runspace (after a delay) or another invalid operation: retry
      }
    }
  }

  /**
   * Disposing a context that was constructed and initialized throws: no code path
   * creates the cancellation token source Dispose cancels.
   */
  method DisposeAfterInitializeThrows(lookup: Option<RC.PSVersionTable>, hasDebugger: bool, getPolicyResults: seq<RC.ExecutionPolicy>)
    returns (raised: Option<DotNetException>)
    ensures raised == Some(NullReference)
  {
    var context := new PowerShellContext();
    var _ := context.Initialize(lookup, hasDebugger, getPolicyResults);
    var _, r := context.Dispose();
    raised := r;
  }

  /** With the guard, the same sequence of calls leaves the context disposed without throwing. */
  method DisposeGuardedAfterInitialize(lookup: Option<RC.PSVersionTable>, hasDebugger: bool, getPolicyResults: seq<RC.ExecutionPolicy>)
    returns (state: SessionState)
    ensures state == Disposed
  {
    var context := new PowerShellContext();
    var _ := context.Initialize(lookup, hasDebugger, getPolicyResults);
    var _ := context.DisposeGuarded();
    state := context.sessionState;
  }

  /**
   * Queues the four requests of the session test that runs requests in parallel on a
   * freshly initialized context: three scripts through ExecuteScriptString(script),
   * which sends their output to the host, then a pipeline reading `$x` through
   * ExecuteCommand without output to the host.
   */
  method QueueParallelTestRequests(context: PowerShellContext, debugger: DebuggerAnswer)
    requires context.Valid() && context.sessionState != Unknown
    requires context.executionRequestQueue == []
    modifies context`executionRequestQueue, context`nextCompletion
    ensures context.Valid()
    ensures context.executionRequestQueue == ParallelTestQueue(context.isDebuggerStopped, old(context.nextCompletion))
  {
    var first := context.nextCompletion;
    var stopped := context.isDebuggerStopped;
    var queue := ParallelTestQueue(stopped, first);
    var o1 := context.ExecuteScriptString("$x = 100", true, Available, debugger);
    assert o1.Queued? && context.executionRequestQueue == queue[..1];
    var o2 := context.ExecuteScriptString("$x += 200", true, Available, debugger);
    assert o2.Queued? && context.executionRequestQueue == queue[..2];
    var o3 := context.ExecuteScriptString("$x = $x / 100", true, Available, debugger);
    assert o3.Queued? && context.executionRequestQueue == queue[..3];
    var o4, _ := context.ExecuteCommand([ScriptCommand("$x")], None, false, Available, debugger);
    assert o4.Queued? && context.executionRequestQueue == queue[..3] + [queue[3]];
    assert queue[..3] + [queue[3]] == queue;
  }

  /**
   * The completion of the request at the head of the queue is not among those set so far,
   * nor among those of the requests queued behind it.
   */
  lemma HeadNeverSetAfterward(completed: seq<nat>, queue: seq<QueuedRequest>, next: nat)
    requires HandedOut(completed + Completions(queue), next) && queue != []
    ensures queue[0].completion !in completed + Completions(queue[1..])
  {
    var handed := completed + Completions(queue);
    assert handed[|completed|] == queue[0].completion;
    forall k | 0 <= k < |completed|
      ensures completed[k] != queue[0].completion
    {
      assert handed[k] == completed[k];
    }
    forall k | 0 <= k < |queue| - 1
      ensures Completions(queue[1..])[k] != queue[0].completion
    {
      assert handed[|completed| + 1 + k] == Completions(queue[1..])[k];
    }
  }

  /** Four idle events whose runspace accepts the first attempt of each. */
  method FlushOnFourIdleEvents(context: PowerShellContext)
    requires context.Valid() && |context.executionRequestQueue| == 4
    modifies context`executionRequestQueue, context`completedRequests
    ensures context.executionRequestQueue == []
    ensures context.completedRequests == old(context.completedRequests) + Completions(old(context.executionRequestQueue))
  {
    ghost var queued := context.executionRequestQueue;
    ghost var before := context.completedRequests;
    assert FlushSpec(queued, [Success]) == DrainResult(queued[1..], [queued[0]], [], false, 1);
    var _ := context.HandleOnIdleEvent([Success]);
    assert FlushSpec(queued[1..], [Success]) == DrainResult(queued[2..], [queued[1]], [], false, 1);
    var _ := context.HandleOnIdleEvent([Success]);
    assert FlushSpec(queued[2..], [Success]) == DrainResult(queued[3..], [queued[2]], [], false, 1);
    var _ := context.HandleOnIdleEvent([Success]);
    assert FlushSpec(queued[3..], [Success]) == DrainResult([], [queued[3]], [], false, 1);
    var _ := context.HandleOnIdleEvent([Success]);
    assert Completions(queued) == [queued[0].completion, queued[1].completion, queued[2].completion, queued[3].completion];
  }

  /** Three idle events, the runspace busy at the first attempt of the first. */
  method FlushOnIdleEventsBusyFirst(context: PowerShellContext)
    requires context.Valid() && |context.executionRequestQueue| == 4
    modifies context`executionRequestQueue, context`completedRequests
    ensures context.executionRequestQueue == []
    ensures context.completedRequests == old(context.completedRequests) + Completions(old(context.executionRequestQueue)[1..])
    ensures old(context.executionRequestQueue)[0].completion !in context.completedRequests
  {
    ghost var queued := context.executionRequestQueue;
    HeadNeverSetAfterward(context.completedRequests, queued, context.nextCompletion);
    assert FlushSpec(queued, [Busy, Success]) == DrainResult(queued[2..], [queued[1]], [queued[0]], false, 2);
    var _ := context.HandleOnIdleEvent([Busy, Success]);
    assert FlushSpec(queued[2..], [Success]) == DrainResult(queued[3..], [queued[2]], [], false, 1);
    var _ := context.HandleOnIdleEvent([Success]);
    assert FlushSpec(queued[3..], [Success]) == DrainResult([], [queued[3]], [], false, 1);
    var _ := context.HandleOnIdleEvent([Success]);
    assert Completions(queued[1..]) == [queued[1].completion, queued[2].completion, queued[3].completion];
  }

  /**
   * The session test that runs requests in parallel, on the test fixture's initialized
   * context: its four requests, drained by four idle events whose runspace accepts each,
   * complete in the order they were queued, so the read of `$x` follows the three
   * assignments.
   */
  method ParallelRequestsCompleteInOrder(context: PowerShellContext, debugger: DebuggerAnswer)
    returns (queued: seq<QueuedRequest>)
    requires context.Valid() && context.sessionState != Unknown
    requires context.executionRequestQueue == []
    modifies context`executionRequestQueue, context`nextCompletion, context`completedRequests
    ensures queued == ParallelTestQueue(context.isDebuggerStopped, old(context.nextCompletion))
    ensures context.completedRequests == old(context.completedRequests) + Completions(queued)
    ensures context.executionRequestQueue == []
  {
    QueueParallelTestRequests(context, debugger);
    queued := context.executionRequestQueue;
    FlushOnFourIdleEvents(context);
  }

  /**
   * The same test when the runspace is busy at the first idle event: the flush drops the
   * first request (`$x = 100`), its completion is never set, and only the other three
   * complete.
   */
  method BusyIdleEventLosesParallelRequest(context: PowerShellContext, debugger: DebuggerAnswer)
    returns (queued: seq<QueuedRequest>)
    requires context.Valid() && context.sessionState != Unknown
    requires context.executionRequestQueue == []
    modifies context`executionRequestQueue, context`nextCompletion, context`completedRequests
    ensures queued == ParallelTestQueue(context.isDebuggerStopped, old(context.nextCompletion))
    ensures context.completedRequests == old(context.completedRequests) + Completions(queued[1..])
    ensures queued[0].completion !in context.completedRequests
    ensures context.executionRequestQueue == []
  {
    QueueParallelTestRequests(context, debugger);
    queued := context.executionRequestQueue;
    FlushOnIdleEventsBusyFirst(context);
  }
}

=== FILE: RunspaceConfiguration.dfy ===
/**
 * The decisions PowerShellContext makes while configuring its runspace: which
 * version-specific operations to use, whether to lower the execution policy, and
 * how the prompt string is trimmed.
 */
module RunspaceConfiguration {
  import opened Wrappers
  import opened Errors

  /** A System.Version component: -1 when the component was not given. */
  type Component = x: int | x >= -1

  /** System.Version; `new Version(5, 0)` leaves build and revision undefined. */
  datatype Version = Version(major: nat, minor: nat, build: Component, revision: Component)

  function MajorMinor(major: nat, minor: nat): Version
  {
    Version(major, minor, -1, -1)
  }

  /** System.Version ordering: component by component, an undefined component first. */
  predicate VersionLess(a: Version, b: Version): (r: bool)
    ensures r ==> a != b && a.major <= b.major
    ensures a.major < b.major ==> r
  {
    || a.major < b.major
    || (a.major == b.major && a.minor < b.minor)
    || (a.major == b.major && a.minor == b.minor && a.build < b.build)
    || (a.major == b.major && a.minor == b.minor && a.build == b.build && a.revision < b.revision)
  }

  /** The strategy objects PowerShellContext chooses between (PowerShellContext.cs:335-352). */
  datatype VersionOperations = PowerShell3Operations | PowerShell4Operations | PowerShell5Operations

  /**
   * The version choice of ConfigureRunspace: `version >= 5.0` selects the PowerShell 5
   * operations, major 4 and 3 their own, and anything else is not supported.  Since
   * build and revision are never below "undefined", `version >= 5.0` is `major >= 5`.
   */
  function SelectOperations(v: Version): (r: Result<VersionOperations, DotNetException>)
    ensures r == Ok(PowerShell5Operations) <==> v.major >= 5
    ensures r == Ok(PowerShell4Operations) <==> v.major == 4
    ensures r == Ok(PowerShell3Operations) <==> v.major == 3
    ensures r.Err? <==> v.major < 3
    ensures r.Err? ==> r.error == NotSupportedVersion(v.major)
  {
    if !VersionLess(v, MajorMinor(5, 0)) then Ok(PowerShell5Operations)
    else if v.major == 4 then Ok(PowerShell4Operations)
    else if v.major == 3 then Ok(PowerShell3Operations)
    else Err(NotSupportedVersion(v.major))
  }

  /** The `PSVersionTable` entries GetPowerShellVersion reads; a missing or mistyped entry is None. */
  datatype PSVersionTable = PSVersionTable(psVersion: Option<Version>, psEdition: Option<string>)

  const DefaultVersion: Version := MajorMinor(5, 0)
  const DefaultEdition: string := "Desktop"

  /**
   * GetPowerShellVersion: the version and edition read from `$PSVersionTable`.  `lookup`
   * is None when the lookup threw or did not produce a hashtable; then, and for every
   * entry the table lacks, the defaults 5.0 and "Desktop" stand.
   */
  function GetPowerShellVersion(lookup: Option<PSVersionTable>): (r: (Version, string))
    ensures lookup.None? ==> r == (DefaultVersion, DefaultEdition)
    ensures r.0 == DefaultVersion || (lookup.Some? && lookup.value.psVersion == Some(r.0))
    ensures r.1 == DefaultEdition || (lookup.Some? && lookup.value.psEdition == Some(r.1))
    ensures lookup.Some? && lookup.value.psVersion.Some? ==> r.0 == lookup.value.psVersion.value
    ensures lookup.Some? && lookup.value.psEdition.Some? ==> r.1 == lookup.value.psEdition.value
  {
    match lookup
    case None => (DefaultVersion, DefaultEdition)
    case Some(table) =>
      (match table.psVersion case Some(v) => v case None => DefaultVersion,
       match table.psEdition case Some(e) => e case None => DefaultEdition)
  }

  /** A failed version lookup configures the PowerShell 5 operations. */
  lemma FailedLookupSelectsPowerShell5()
    ensures SelectOperations(GetPowerShellVersion(None).0) == Ok(PowerShell5Operations)
    ensures GetPowerShellVersion(None).1 == "Desktop"
  {
  }

  /** Microsoft.PowerShell.ExecutionPolicy (`Default` has the value of `Restricted`). */
  datatype ExecutionPolicy = Unrestricted | RemoteSigned | AllSigned | Restricted | Bypass | Undefined

  /** The enum's underlying values, which `<` compares. */
  function Ordinal(p: ExecutionPolicy): nat
  {
    match p
    case Unrestricted => 0
    case RemoteSigned => 1
    case AllSigned => 2
    case Restricted => 3
    case Bypass => 4
    case Undefined => 5
  }

  /** The policy ConfigureRunspace asks for. */
  const DesiredExecutionPolicy: ExecutionPolicy := RemoteSigned

  /** `result.FirstOrDefault()` over the output of Get-ExecutionPolicy. */
  function FirstOrDefault(results: seq<ExecutionPolicy>): ExecutionPolicy
  {
    if results == [] then Unrestricted else results[0]
  }

  /** The test of SetExecutionPolicy (PowerShellContext.cs:1036-1038). */
  predicate ShouldSetExecutionPolicy(desired: ExecutionPolicy, current: ExecutionPolicy): (r: bool)
    ensures desired == current && desired != Bypass && current != Undefined ==> !r
  {
    Ordinal(desired) < Ordinal(current) || desired == Bypass || current == Undefined
  }

  /**
   * The Set-ExecutionPolicy that ConfigureRunspace issues, if any: none on the "Linux"
   * edition; otherwise RemoteSigned exactly when the current policy (the first result of
   * Get-ExecutionPolicy, Unrestricted when there is none) is stricter than RemoteSigned,
   * is Bypass, or is Undefined.
   */
  function ExecutionPolicyToSet(edition: string, getPolicyResults: seq<ExecutionPolicy>): (r: Option<ExecutionPolicy>)
    ensures r.Some? ==> edition != "Linux" && r.value == RemoteSigned
    ensures r.Some? <==>
      edition != "Linux" && FirstOrDefault(getPolicyResults) !in {Unrestricted, RemoteSigned}
  {
    if edition != "Linux" && ShouldSetExecutionPolicy(DesiredExecutionPolicy, FirstOrDefault(getPolicyResults))
    then Some(DesiredExecutionPolicy)
    else None
  }

  /**
   * The execution-policy test compares in the enum's declaration order: apart from asking
   * for Bypass or finding the policy Undefined, it sets a policy only when that policy
   * comes earlier in the enum, and never the policy already in force.  Bypass is declared
   * after Restricted, so a Bypass session counts as stricter than every other policy
   * (see BypassSessionIsTightened).
   */
  lemma ExecutionPolicyTestFollowsEnumOrder(desired: ExecutionPolicy, current: ExecutionPolicy)
    requires desired != Bypass && current != Undefined
    ensures ShouldSetExecutionPolicy(desired, current) <==> Ordinal(desired) < Ordinal(current)
    ensures ShouldSetExecutionPolicy(desired, current) ==> desired != current
  {
  }

  /**
   * How permissive a policy is, least restrictive first: Bypass runs everything, then
   * the enum's own order from Unrestricted to Restricted.  Undefined, which names no
   * policy, is placed last.
   */
  function Restrictiveness(p: ExecutionPolicy): nat
  {
    if p == Bypass then 0 else Ordinal(p) + 1
  }

  /**
   * As written, a session running under Bypass is moved to RemoteSigned: the comparison
   * of enum values ranks Bypass above RemoteSigned, so the test sets a stricter policy,
   * although its purpose is not to raise the policy above the current one.
   */
  lemma BypassSessionIsTightened(edition: string)
    requires edition != "Linux"
    ensures ExecutionPolicyToSet(edition, [Bypass]) == Some(RemoteSigned)
    ensures Restrictiveness(RemoteSigned) > Restrictiveness(Bypass)
  {
  }

  /**
   * The corrected test: it never sets a policy over Bypass unless Bypass is asked for,
   * and otherwise decides exactly as the test as written.
   */
  predicate ShouldLowerExecutionPolicy(desired: ExecutionPolicy, current: ExecutionPolicy): (r: bool)
    ensures current != Bypass ==> r == ShouldSetExecutionPolicy(desired, current)
    ensures current == Bypass ==> (r <==> desired == Bypass)
  {
    desired == Bypass || current == Undefined || Restrictiveness(desired) < Restrictiveness(current)
  }

  /**
   * The corrected test never tightens: apart from asking for Bypass or finding the policy
   * Undefined, it sets a policy exactly when that policy is less restrictive.
   */
  lemma CorrectedPolicyTestOnlyLowers(desired: ExecutionPolicy, current: ExecutionPolicy)
    requires desired != Bypass && current != Undefined
    ensures ShouldLowerExecutionPolicy(desired, current) <==> Restrictiveness(desired) < Restrictiveness(current)
    ensures !ShouldLowerExecutionPolicy(RemoteSigned, Bypass)
  {
  }

  /** The characters WritePromptToHost trims off the end of the prompt. */
  const PromptTrimChars: set<char> := {' ', '>', '\r', '\n'}

  /** String.TrimEnd(chars): the longest prefix of `s` that does not end in one of `chars`. */
  function TrimEnd(s: string, chars: set<char>): (r: string)
    ensures |r| <= |s| && r == s[..|r|]
    ensures r == [] || r[|r| - 1] !in chars
    ensures forall i :: |r| <= i < |s| ==> s[i] in chars
    decreases |s|
  {
    if s != [] && s[|s| - 1] in chars then TrimEnd(s[..|s| - 1], chars) else s
  }

  /** Trimming twice is trimming once. */
  lemma TrimEndIdempotent(s: string, chars: set<char>)
    ensures TrimEnd(TrimEnd(s, chars), chars) == TrimEnd(s, chars)
  {
    var r := TrimEnd(s, chars);
    if r != [] {
      assert r[|r| - 1] !in chars;
    }
  }

  /**
   * The prompt WritePromptToHost writes: the output of `prompt` (None when it returned
   * null or threw a RuntimeException, in which case "PS >" is used), trimmed of
   * trailing spaces, '>', carriage returns and line feeds.
   */
  function PromptText(promptOutput: Option<string>): (r: string)
    ensures promptOutput.None? ==> r == "PS"
    ensures promptOutput.Some? ==> r == TrimEnd(promptOutput.value, PromptTrimChars)
  {
    var prompt := match promptOutput case Some(p) => p case None => "PS >";
    assert TrimEnd("PS", PromptTrimChars) == "PS";
    assert "PS >"[..|"PS >"| - 1] == "PS ";
    assert "PS "[..|"PS "| - 1] == "PS";
    TrimEnd(prompt, PromptTrimChars)
  }
}

=== FILE: Wrappers.dfy ===
/** Option and Result: the model's stand-ins for .NET's null references and thrown exceptions. */
module Wrappers {

  datatype Option<+T> = None | Some(value: T)

  datatype Result<+R, +E> = Ok(value: R) | Err(error: E)
}
